=== FILE: README.md ===
# CSV query interface: display text model

This project models the core of a small web application that lets a user
upload a CSV file, ask natural-language questions about it and see results
as a table. Every view of data in the application goes through one text
format: tab-separated display text, with a header line and then one line
per row. The model covers how that text is produced and consumed:

- **Display text.** How parsed CSV records become display text on the
  upload path, the example path and the re-selection path (`TsvFormat`,
  `FileUpload`, `HomePage`).
- **Storage and records.** The storage name and the file record that an
  upload inserts (`FileUpload`).
- **Query answers.** How the query editor turns an answer into display
  text: a pipe-delimited answer becomes a table, any other answer becomes
  one column headed `Response` (`QueryEditor`).
- **Parsing.** How the results view parses display text back into a
  header row and data rows (`ResultsTable`).
- **Page state.** How the home page's selected file and shown result
  change (`HomePage`).

The JavaScript string primitives the code relies on are written out in
`JsString`:

- `split` on a one-character separator, which always returns at least one
  piece;
- `join`, where an empty list joins to the empty string;
- `trim`, which removes the ECMAScript white-space and line-terminator code
  points;
- filtering out empty strings.

The CSV parser, the hosted database, object storage and the query
endpoint are outside the model. Their results enter as parameters:

- a parse result, or `None` for a parse error;
- whether the storage upload succeeded;
- the inserted row's identifier;
- the reply of the query endpoint;
- the random token in the storage name.

A parsed record holds its fields in the order the parser created them,
which is header order. `Object.keys` and `Object.values` do not always
report that order. They list a record's own properties with the keys that
are array indices (canonical decimal numbers below 2^32 - 1, such as
`2023`) first, in ascending numeric order, and then the other keys in
creation order (section 10.1.11.1 of ECMA-262). `FileUpload.OwnOrder`
models this order.

Files:

- `base.dfy`: `Option` and `Min`.
- `jsstring.dfy`: the `split`, `join`, `trim` and empty-filter primitives,
  with their algebra.
- `results_table.dfy`: the results view's `parseData` and its round trip
  with rendering.
- `tsv_format.dfy`: the display encoding of headers and rows.
- `file_upload.dfy`: the upload component.
- `query_editor.dfy`: answer normalisation and query submission.
- `home_page.dfy`: the page state.

## Model

| member | source | states |
|---|---|---|
| JsString.Trim | components/results-table.tsx:21 | The result has no whitespace at either end. It is the text's own slice from the first non-whitespace character, with only whitespace dropped on each side. |
| JsString.TrimEmpty | components/query-editor.tsx:23 | A text trims to the empty string exactly when it is all whitespace. Both directions are proved. |
| JsString.TrimUnique | components/query-editor.tsx:45 | Whitespace on either side of a non-empty text with non-whitespace ends is trimmed back to exactly that text. |
| JsString.TrimTight | components/results-table.tsx:21 | Trimming changes nothing when a text has no whitespace at its ends. |
| JsString.TrimChars | components/query-editor.tsx:45 | Trimming introduces no character absent from the input. |
| JsString.Split | components/results-table.tsx:21-23 | There is always one more piece than there are separators, and no piece contains the separator. |
| JsString.JoinSplit | components/results-table.tsx:21-23 | Joining the pieces of a split with the same separator gives back the original text. |
| JsString.SplitJoin | components/file-upload.tsx:92-94 | Splitting a join gives back the list when there is at least one element and none contains the separator. |
| JsString.SplitAround | components/query-editor.tsx:43-44 | Splitting a text at a separator occurrence splits each side independently and concatenates the pieces. |
| JsString.SplitChars | components/results-table.tsx:22-23 | Splitting introduces no character absent from the input. |
| JsString.JoinChars | components/file-upload.tsx:92-94 | Joining introduces only the separator. |
| JsString.JoinTight | components/query-editor.tsx:47 | Joining non-empty pieces without outer whitespace gives a non-empty text without outer whitespace. |
| JsString.JoinLast | components/file-upload.tsx:97 | A join of two or more elements ends with the separator and the last element. |
| JsString.DropEmpty | components/query-editor.tsx:46 | The kept elements are exactly the non-empty elements of the input. None is empty, and there are no more than in the input. |
| JsString.DropEmptyLength | components/query-editor.tsx:46 | The number kept is the input length minus the number of empty elements. |
| JsString.DropEmptyAppend | components/query-editor.tsx:48 | Filtering a concatenation is concatenating the filtered parts. |
| ResultsTable.ParseTsv | components/results-table.tsx:20-25 | The header row always has a cell. There is one data row per newline in the trimmed text. Every row has at least one cell, and no cell holds a tab or a newline. |
| ResultsTable.RenderParse | components/results-table.tsx:20-25 | Rendering the parsed table gives back the trimmed text: parsing loses only the surrounding whitespace. |
| ResultsTable.ParseRender | components/results-table.tsx:20-25 | Parsing the rendering of a table gives back the table. This needs clean cells, no empty row and no outer whitespace. |
| ResultsTable.ParsedLines | components/results-table.tsx:21-23 | Joining the parsed header row, or any parsed data row, with tabs gives back exactly its line of the trimmed text. |
| ResultsTable.ParseTrimmed | components/results-table.tsx:21 | Parsing depends on the text only through its trimmed form. |
| ResultsTable.ParseRagged | components/results-table.tsx:22-23 | Rows are neither padded nor cut to the header's width. An empty line becomes a row with one empty cell. |
| ResultsTable.ParseEmpty | components/results-table.tsx:21-22 | The empty text parses to one empty header and no rows. |
| TsvFormat.EncodeIsRender | components/file-upload.tsx:92-94 | With at least one row, the display encoding is the rendering the results view reads. |
| TsvFormat.EncodeLines | app/page.tsx:58-60 | With at least one row and no cell holding a newline, the display text has one line for the joined headers, then one line per row with its cells joined by tabs, in order. |
| TsvFormat.EncodeParse | components/file-upload.tsx:92-94 | Parsing the display text gives back the headers and rows. This needs clean, non-empty rows and no outer whitespace. |
| TsvFormat.EncodeParseNoRows | components/file-upload.tsx:92-94 | With at least one header, no header holding a tab or newline, and a header line that neither begins nor ends with whitespace: with no rows, the text ends in a newline and parses back to the headers alone. |
| TsvFormat.JoinEmptyLine | components/file-upload.tsx:92 | A header line is empty only when the header list is the single empty name. |
| FileUpload.SortByIndex | components/file-upload.tsx:92-93 | The array-index fields are rearranged, not changed: the result holds the same fields and ascends by numeric value. |
| FileUpload.OwnOrder | components/file-upload.tsx:92-93 | The own-property listing holds exactly the record's fields, one entry per field. When no key is an array index it is the record in header order. |
| FileUpload.OwnOrderShape | components/file-upload.tsx:92-93 | In the listing every array-index key comes before every other key, the array-index keys ascend, and the other keys keep their creation order. |
| FileUpload.Keys | components/file-upload.tsx:92 | There is one key per field. When no column is named like an array index, the keys are the column names in header order. |
| FileUpload.Values | components/file-upload.tsx:93 | There is one value per field. When no column is named like an array index, the values are the cells in header order. |
| FileUpload.KeysValuesPaired | components/file-upload.tsx:92-93 | Within each record, the i-th key and the i-th value always belong to the same field. |
| FileUpload.KeysFollowCreation | components/file-upload.tsx:92 | Records created with the same columns in the same order list the same keys, whatever their values. |
| FileUpload.UploadAligned | components/file-upload.tsx:92-94 | When every record was created with the first record's columns, the value in row i under the j-th header of the upload display is record i's value for that header's key. |
| FileUpload.ValuesEach | components/file-upload.tsx:93 | There is one value list per record, in record order. |
| FileUpload.Display | components/file-upload.tsx:92-94 | No text is produced exactly when there are no records. |
| FileUpload.DisplayRoundTrip | components/file-upload.tsx:92-94 | The results view shows the first record's keys over every record's values. This needs clean, non-empty records and no outer whitespace. |
| FileUpload.ExampleDisplay | components/file-upload.tsx:35-46 | Text is handed on exactly when parsing succeeded with at least one record, and it is the upload path's display text. |
| FileUpload.Extension | components/file-upload.tsx:97 | The extension holds no dot and is a suffix of the name. When it is shorter than the name, a dot precedes it. |
| FileUpload.StorageNameExtension | components/file-upload.tsx:97-98 | The storage name keeps the original extension whatever the random token is. |
| FileUpload.Sample | components/file-upload.tsx:113 | The sample is a prefix of the records, of length min(100, n). |
| FileUpload.NewRecord | components/file-upload.tsx:106-115 | The record's file name is the storage name, so its extension is the original file's. The row count is the full record count. The sample is the first min(100, n) records, which is the whole data when there are at most 100. The column names are the parser's fields. The original name, size in bytes and MIME type are the selected file's, and the status is `ready`. |
| FileUpload.Upload | components/file-upload.tsx:69-133 | Each path has its exact trace. No file does nothing. A parse error or no records fail before any backend call. A failed object upload makes exactly that one call. Once the object is stored, the object upload under the storage name and the insert of the new record are made. The run then fails with the insert or succeeds with the stored record and the upload's display text. Success implies every step succeeded, and there are at most two calls. |
| FileUpload.UploadedRecord | components/file-upload.tsx:99-115 | A successful upload makes exactly one object upload and then one insert. The record counts at least one row and samples the first min(100, n) records. |
| FileUpload.InsertFailureKeepsObject | components/file-upload.tsx:99-117 | When the insert fails, the run is exactly the object upload and the attempted insert, and it fails with the insert. No call removes the stored object. |
| QueryEditor.PipeRow | components/query-editor.tsx:44-47 | Every cell is one of the line's pipe-separated pieces, trimmed. It is non-empty, without outer whitespace and without a pipe. It holds no newline when its line holds none. |
| QueryEditor.PipeRowWidth | components/query-editor.tsx:44-46 | A row has as many cells as its line has pipe-pieces that are not all whitespace. |
| QueryEditor.PipeRowAppend | components/query-editor.tsx:44-46 | Blank cells are removed rather than kept as gaps: the cells of two line parts joined by a pipe are those of each part in order. |
| QueryEditor.PipeRowOfCells | components/query-editor.tsx:44-47 | Cells that are non-empty, pipe-free and not padded with whitespace come back unchanged, in order, from the line they are joined into with pipes. |
| QueryEditor.OuterPipes | components/query-editor.tsx:44-46 | Pipes at both ends of a line add no cells. |
| QueryEditor.PaddedCell | components/query-editor.tsx:44-47 | A pipe-free piece made of a non-empty cell with whitespace on either side, such as ` a `, gives back that cell alone. |
| QueryEditor.PaddedRowOfCells | components/query-editor.tsx:44-47 | Non-empty pipe-free cells, each padded with any whitespace on either side and joined with pipes, come back as exactly those cells in order. |
| QueryEditor.FramedRow | components/query-editor.tsx:43-48 | A Markdown row framed by pipes at both ends, with cells written as ` a ` and ` b ` between the pipes, gives back exactly its cells however each is padded with whitespace. So a separator row is kept as a row of `---` cells. |
| QueryEditor.PipeLines | components/query-editor.tsx:43-48 | No more lines come out than went in. Each is non-empty, without outer whitespace, newline or pipe. |
| QueryEditor.PipeLinesAppend | components/query-editor.tsx:43-48 | Lines are converted independently and keep their order. |
| QueryEditor.PipeLinesTable | components/query-editor.tsx:43-48 | Dropping empty joined lines is the same as dropping the lines without cells before joining. |
| QueryEditor.PipeOutputLines | components/query-editor.tsx:43-49 | The table text splits into no more lines than the answer had. Either it is empty or every line is non-empty without outer whitespace. |
| QueryEditor.PipeTableParses | components/query-editor.tsx:41-49 | When the table text is non-empty and the answer holds no tab, the results view shows the first line with a cell as headers and the cells of the other such lines as rows, in order. |
| QueryEditor.NonEmptyTable | components/query-editor.tsx:43-49 | The table text is non-empty exactly when some line of the answer has a cell. |
| QueryEditor.PipeToTsv | components/query-editor.tsx:49 | The table text holds no pipe. |
| QueryEditor.FormatAnswer | components/query-editor.tsx:41-53 | An answer without a pipe is wrapped under `Response`. An answer with one becomes its pipe-table conversion, which holds no pipe. |
| QueryEditor.PlainAnswerHeader | components/query-editor.tsx:52 | An answer without a pipe is always shown under the single header `Response`, whatever it holds. |
| QueryEditor.PlainAnswerTable | components/query-editor.tsx:52 | A one-line answer without pipe or tab and without outer whitespace is shown as a one-cell column under `Response`. |
| QueryEditor.Submit | components/query-editor.tsx:22-53 | A blank query sends nothing. Any other query is sent untrimmed with the file id. A result is handed on only after a reply that did not fail: the normalised answer for a string, the wrapped rendering otherwise. |
| HomePage.FileSelected | app/page.tsx:45-61 | A failed lookup changes nothing. A found file becomes the selection, and its stored display text is shown. |
| HomePage.ReselectLines | app/page.tsx:58-60 | With no newline in names or values, the first line is the column names joined by tabs. Then there is one line per sampled record with its values joined by tabs, in stored order. |
| HomePage.ReselectAfterUpload | components/file-upload.tsx:113 | When no column name and no value holds a newline, re-selecting an uploaded file shows 1 + min(100, n) lines, so never more than 101, however many records the file has. |
| HomePage.ReselectMatchesUpload | app/page.tsx:58-60 | When the parser's fields are the first record's keys and there are at most 100 records, re-selection shows the text the upload produced. The lemma reads the inserted record as the one the lookup returns, so it assumes the database keeps the sample's key order. |
| HomePage.ReselectMisaligned | app/page.tsx:58-59 | For a file headed `name,2023` with one record `x,y`, the upload shows `2023`, `name` over `y`, `x`. Re-selection shows `name`, `2023` over `y`, `x`, so `name` stands over the wrong value. The column-by-column display shows `x`, `y`. |
| HomePage.ValueAt | app/page.tsx:58-59 | Looking a column up by name gives the value of the first field with that key, or the empty string when there is none. |
| HomePage.ColumnValues | app/page.tsx:58-59 | A record read by column names gives one value per name, each the record's value for that name. |
| HomePage.AlignedAgrees | app/page.tsx:58-59 | Reading by column names changes nothing where the stored display is right. This holds when no column is named like an array index, the names are distinct, and every sampled record has exactly those keys in that order. |
| HomePage.AlignedShown | app/page.tsx:58-59 | For a record with at least one column and one sampled record, no column name or looked-up value holding a tab or newline, and a display text that neither begins nor ends with whitespace: under the column-by-column display, the results view shows the column names as headers and one row per sampled record. The cell in row i under column j is record i's value for column j. |
| HomePage.QueryAnswered | app/page.tsx:63-65 | A query result replaces the shown text and keeps the selection. The table shows exactly when a file is selected and the text is non-empty. |
| HomePage.PlainAnswerShown | app/page.tsx:139-143 | An answer without a pipe always leads to a visible results table. |
| HomePage.FileUploadedAsWritten | app/page.tsx:38-43 | The handler always selects the file. It throws exactly when handed a string or an empty array, and then the shown text is unchanged. Otherwise it shows the display text of the records it was handed. |
| HomePage.AfterUpload | components/file-upload.tsx:131-133 | After every successful upload, whatever the page showed before, the handler throws: the new file is selected and the shown text stays as it was. Any other outcome calls nothing and changes nothing. |
| HomePage.AfterExample | components/file-upload.tsx:35-46 | Whenever the example parses to at least one record, the handler throws on its display text: `example` is selected and the shown text stays as it was. Otherwise nothing is called and nothing changes. |
| HomePage.UploadNeverShown | app/page.tsx:38-43 | After a successful first upload the handler throws, and the page selects the new file but shows no table. The upload's display text is non-empty all the same. |
| HomePage.RecordsWouldShow | app/page.tsx:38-43 | Handed the parsed records instead of their text, the handler as written shows exactly the upload's display text. |
| HomePage.FileUploaded | app/page.tsx:38-43 | The intended handler selects the file and shows the text it is handed. The table shows exactly when that text is non-empty. |
| HomePage.UploadShown | components/file-upload.tsx:131-133 | When every record has at least one field, no key or value holds a tab or newline, and the display text neither begins nor ends with whitespace: with the intended handler, a successful upload selects the new file and the results view shows the first record's keys over every record's values. |

## Left out

- The CSV parser (PapaParse) is not modelled. Its records and field list are a parameter, with each record's fields in header order, and a parse error is `None`.
- The hosted database, object storage and authentication calls are not modelled: their outcomes are parameters.
  - This covers listing files, the session check and redirect, and the login and signup pages.
- The query endpoint (`app/api/query/route.ts`) and the language model behind it are not part of this model. Only the reply shape is modelled.
- `handleFileDelete` is not modelled: it is best-effort remote I/O with no local invariant.
- The "Export CSV" button is not modelled because it calls PapaParse's `unparse`.
- Timing, randomness and UI state are not modelled: the progress timer, `performance.now`, the toasts, `isLoading` and the animations.
  - `Math.random` in the storage name is a `token` parameter.
- QueryEditor.Submit: a non-string answer is rendered by the template literal (`undefined`, `[object Object]`, numbers). The model takes that rendering as given in `OtherAnswer`.
- QueryEditor.Submit: the button being disabled while a request is pending is not modelled, because it concerns overlapping requests.
- A stored record whose `column_names` is null (the parser gave no field list) is not modelled. The re-selection path would throw; the model's field list is always a sequence.
- FileUpload.Upload: the file list refresh after the insert and the upload notices are not modelled. The outcome records only what was stored and shown.
- Strings are sequences of Unicode scalar values, while JavaScript strings are sequences of UTF-16 code units. Every separator and white-space character the code tests for is a single code unit, so splitting, joining and trimming agree. Lengths and indices of text outside the Basic Multilingual Plane differ and are not modelled.
- The database's storage of `sample_data` is not modelled. Its type in lib/database.types.ts is `Json`, and whether the column is `json` or `jsonb` is not part of this model. A `jsonb` column would reorder each record's keys. HomePage.ReselectMatchesUpload takes the stored sample to keep the parser's key order.
- A header with a repeated column name is not modelled: a parsed record is taken to have one field per name. HomePage.ValueAt reads the first field with the name.
- FileUpload.Display and HomePage.RecordDisplay use the parser's records as they are. Records with differing key sets, which the parser can emit for ragged lines, are kept as they are: their values are not aligned to the header.

## Findings

| source | as written | input that shows it | evidently intended | confidence | as-written member | corrected member |
|---|---|---|---|---|---|---|
| app/page.tsx:38-43 | The upload callback is handed the already formatted display text (components/file-upload.tsx:45,132) but treats it as a record array. `Object.keys(data[0])` runs on one character, then `data.map` is not a function on a string and throws before the result is set. On the upload path `handleUpload`'s catch then reports a failed upload. | Any successful upload, e.g. one record `{a: "1"}` with display text `"a\n1"`: the file is selected, no table is shown when no result was shown before (an earlier result stays on screen), and "Upload failed" is reported after the success notice. | Select the file and show the display text it was handed. | not executed; high | HomePage.FileUploadedAsWritten, HomePage.AfterUpload, HomePage.AfterExample, HomePage.UploadNeverShown | HomePage.FileUploaded, HomePage.UploadShown |
| app/page.tsx:58-59 | Re-selection takes the header line from `column_names`, the parser's field list in header order. It takes each row from `Object.values` of a stored record, which lists array-index keys first in ascending order. When a column is named like an array index, values move under the wrong headers. The upload path (components/file-upload.tsx:92-93) takes both lines from the records' own-property order. When the records share their columns it stays aligned, only with the columns reordered. | A file headed `name,2023` with one record `x,y`. The upload shows `2023`, `name` over `y`, `x`. Re-selecting the file shows `name`, `2023` over `y`, `x`. | Read each sampled record by the column names, so every value stands under its own column. | not executed; medium | HomePage.RecordDisplay, HomePage.ReselectMisaligned | HomePage.AlignedDisplay, HomePage.AlignedShown, HomePage.AlignedAgrees |

=== FILE: base.dfy ===
/** The optional value and the small helpers shared by the other modules. */
module Base {

  /** An optional value: `None` stands for a missing reply or an error whose
      contents the application never inspects. */
  datatype Option<+T> = None | Some(value: T)

  /** The smaller of two integers. */
  function Min(a: int, b: int): (m: int)
    ensures m <= a && m <= b
    ensures m == a || m == b
  {
    if a <= b then a else b
  }
}

=== FILE: file_upload.dfy ===
/** The upload component: formatting parsed CSV records for display (on the
    upload path and the example path), the storage name, and the file
    record that is inserted. CSV parsing itself, storage and the database
    are outside the model: their results are parameters. */
module FileUpload {
  import opened Base
  import opened JsString
  import opened ResultsTable
  import opened TsvFormat

  /** One column of a record parsed in header mode: the column name and
      the cell's text. */
  datatype Field = Field(key: string, value: string)

  /** A parsed record: its fields in the order the parser created them,
      which is the order of the header line. */
  type Row = seq<Field>

  /** The parser's result in header mode: the records and `meta.fields`. */
  datatype ParseResult = ParseResult(data: seq<Row>, fields: seq<string>)

  /** The value of a decimal digit; any other character counts as zero. */
  function DigitValue(c: char): nat {
    if '0' <= c <= '9' then c as int - '0' as int else 0
  }

  /** The number a string of decimal digits denotes. */
  function DecimalValue(k: string): nat {
    if |k| == 0 then 0 else DecimalValue(k[..|k| - 1]) * 10 + DigitValue(k[|k| - 1])
  }

  /** An array index in the sense of section 6.1.7 of ECMA-262: the
      canonical decimal form of an integer below 2^32 - 1, so digits only
      and no leading zero. */
  predicate IsArrayIndex(k: string) {
    && |k| >= 1
    && (forall i :: 0 <= i < |k| ==> '0' <= k[i] <= '9')
    && (k[0] == '0' ==> |k| == 1)
    && DecimalValue(k) < 0xFFFF_FFFF
  }

  /** No field of the record is named like an array index. */
  predicate NoIndexKeys(row: Row) {
    forall i :: 0 <= i < |row| ==> !IsArrayIndex(row[i].key)
  }

  /** The fields named like array indices, in creation order. */
  function IndexFields(row: Row): Row {
    if |row| == 0 then []
    else if IsArrayIndex(row[0].key) then [row[0]] + IndexFields(row[1..])
    else IndexFields(row[1..])
  }

  /** The other fields, in creation order. */
  function NamedFields(row: Row): Row {
    if |row| == 0 then []
    else if IsArrayIndex(row[0].key) then NamedFields(row[1..])
    else [row[0]] + NamedFields(row[1..])
  }

  /** Every field goes to exactly one of the two lists. */
  lemma {:induction false} FieldsPartition(row: Row)
    ensures multiset(NamedFields(row)) + multiset(IndexFields(row)) == multiset(row)
    decreases |row|
  {
    if |row| > 0 {
      FieldsPartition(row[1..]);
      assert row == [row[0]] + row[1..];
    }
  }

  /** The array-index list holds only array-index keys and the other list
      none. */
  lemma {:induction false} FieldsSeparated(row: Row)
    ensures forall i :: 0 <= i < |IndexFields(row)| ==> IsArrayIndex(IndexFields(row)[i].key)
    ensures NoIndexKeys(NamedFields(row))
    decreases |row|
  {
    if |row| > 0 {
      FieldsSeparated(row[1..]);
      var index := IndexFields(row[1..]);
      var named := NamedFields(row[1..]);
      if IsArrayIndex(row[0].key) {
        forall i | 0 <= i < |[row[0]] + index| ensures IsArrayIndex(([row[0]] + index)[i].key) {
          if i > 0 { assert ([row[0]] + index)[i] == index[i - 1]; }
        }
      } else {
        forall i | 0 <= i < |[row[0]] + named| ensures !IsArrayIndex(([row[0]] + named)[i].key) {
          if i > 0 { assert ([row[0]] + named)[i] == named[i - 1]; }
        }
      }
    }
  }

  /** Without array-index keys every field is a named field. */
  lemma {:induction false} FieldsWithoutIndexKeys(row: Row)
    requires NoIndexKeys(row)
    ensures IndexFields(row) == [] && NamedFields(row) == row
    decreases |row|
  {
    if |row| > 0 {
      assert !IsArrayIndex(row[0].key);
      assert NoIndexKeys(row[1..]) by {
        forall i | 0 <= i < |row[1..]| ensures !IsArrayIndex(row[1..][i].key) {
          assert row[1..][i] == row[i + 1];
        }
      }
      FieldsWithoutIndexKeys(row[1..]);
      assert row == [row[0]] + row[1..];
    }
  }

  /** The fields are in ascending order of their index value. */
  predicate Ascending(fs: Row) {
    forall i, j :: 0 <= i < j < |fs| ==> DecimalValue(fs[i].key) <= DecimalValue(fs[j].key)
  }

  /** Inserts a field into a list kept in ascending index order. */
  function InsertByIndex(f: Field, fs: Row): (r: Row)
    requires Ascending(fs)
    ensures multiset(r) == multiset(fs) + multiset{f}
    ensures Ascending(r)
    decreases |fs|
  {
    if |fs| == 0 || DecimalValue(f.key) <= DecimalValue(fs[0].key) then
      AscendingCons(f, fs);
      [f] + fs
    else
      AscendingTail(fs);
      var rest := InsertByIndex(f, fs[1..]);
      InsertStep(f, fs, rest);
      [fs[0]] + rest
  }

  /** The tail of an ascending list is ascending. */
  lemma AscendingTail(fs: Row)
    requires |fs| >= 1 && Ascending(fs)
    ensures Ascending(fs[1..])
  {
    assert forall i :: 0 <= i < |fs[1..]| ==> fs[1..][i] == fs[i + 1];
  }

  /** Putting the head back in front of the insert into the tail keeps the
      list ascending and holds the same fields. */
  lemma InsertStep(f: Field, fs: Row, rest: Row)
    requires |fs| >= 1 && Ascending(fs)
    requires DecimalValue(fs[0].key) < DecimalValue(f.key)
    requires multiset(rest) == multiset(fs[1..]) + multiset{f} && Ascending(rest)
    ensures multiset([fs[0]] + rest) == multiset(fs) + multiset{f}
    ensures Ascending([fs[0]] + rest)
  {
    assert fs == [fs[0]] + fs[1..];
    HeadBelowRest(f, fs, rest);
    AscendingCons(fs[0], rest);
  }

  /** The head of an ascending list, when the inserted field is above it,
      is no greater than anything the insert into the tail produced. */
  lemma HeadBelowRest(f: Field, fs: Row, rest: Row)
    requires |fs| >= 1 && Ascending(fs)
    requires DecimalValue(fs[0].key) < DecimalValue(f.key)
    requires multiset(rest) == multiset(fs[1..]) + multiset{f}
    ensures forall k :: 0 <= k < |rest| ==> DecimalValue(fs[0].key) <= DecimalValue(rest[k].key)
  {
    forall k | 0 <= k < |rest|
      ensures DecimalValue(fs[0].key) <= DecimalValue(rest[k].key)
    {
      assert rest[k] in multiset(rest);
      if rest[k] != f {
        assert rest[k] in multiset(fs[1..]);
        var m :| 0 <= m < |fs[1..]| && fs[1..][m] == rest[k];
        assert fs[m + 1] == rest[k];
      }
    }
  }

  /** A field no greater than the first of an ascending list can go in front. */
  lemma AscendingCons(x: Field, rest: Row)
    requires Ascending(rest)
    requires |rest| == 0 || DecimalValue(x.key) <= DecimalValue(rest[0].key)
    ensures Ascending([x] + rest)
  {
    forall i, j | 0 <= i < j < |[x] + rest|
      ensures DecimalValue(([x] + rest)[i].key) <= DecimalValue(([x] + rest)[j].key)
    {
      assert ([x] + rest)[j] == rest[j - 1];
      if i > 0 { assert ([x] + rest)[i] == rest[i - 1]; }
    }
  }

  /** The fields sorted by index value (insertion sort). */
  function SortByIndex(fs: Row): (r: Row)
    ensures multiset(r) == multiset(fs)
    ensures Ascending(r)
  {
    if |fs| == 0 then []
    else
      assert fs == [fs[0]] + fs[1..];
      InsertByIndex(fs[0], SortByIndex(fs[1..]))
  }

  /** The order in which `Object.keys` and `Object.values` list a record's
      own properties (the OrdinaryOwnPropertyKeys operation, section
      10.1.11.1 of ECMA-262): the array-index keys first, in ascending
      numeric order, then the other keys in creation order. */
  function OwnOrder(row: Row): (r: Row)
    ensures multiset(r) == multiset(row)
    ensures |r| == |row|
    ensures forall i :: 0 <= i < |r| ==> r[i] in row
    ensures NoIndexKeys(row) ==> r == row
  {
    var index := SortByIndex(IndexFields(row));
    var named := NamedFields(row);
    FieldsPartition(row);
    assert NoIndexKeys(row) ==> IndexFields(row) == [] && named == row by {
      if NoIndexKeys(row) {
        FieldsWithoutIndexKeys(row);
      }
    }
    assert multiset(index + named) == multiset(row);
    assert |multiset(index + named)| == |multiset(row)|;
    forall i | 0 <= i < |index + named| ensures (index + named)[i] in row {
      assert (index + named)[i] in multiset(index + named);
      assert (index + named)[i] in multiset(row);
    }
    index + named
  }

  /** Listed in own-property order, every array-index key comes before
      every other key and the array-index keys ascend; the other keys keep
      the order in which the record was created. */
  lemma OwnOrderShape(row: Row)
    ensures var r := OwnOrder(row);
            && (forall i, j :: 0 <= i < j < |r| && IsArrayIndex(r[j].key) ==>
                  IsArrayIndex(r[i].key) && DecimalValue(r[i].key) <= DecimalValue(r[j].key))
            && NamedFields(r) == NamedFields(row)
  {
    var index := SortByIndex(IndexFields(row));
    var named := NamedFields(row);
    var r := OwnOrder(row);
    assert r == index + named;
    SortedIndexKeys(row);
    FieldsSeparated(row);
    assert forall i, j :: 0 <= i < j < |r| && IsArrayIndex(r[j].key) ==>
             IsArrayIndex(r[i].key) && DecimalValue(r[i].key) <= DecimalValue(r[j].key) by {
      forall i, j | 0 <= i < j < |r| && IsArrayIndex(r[j].key)
        ensures IsArrayIndex(r[i].key) && DecimalValue(r[i].key) <= DecimalValue(r[j].key)
      {
        assert r[i] == index[i] && r[j] == index[j];
      }
    }
    assert NamedFields(r) == NamedFields(row) by {
      NamedFieldsAppend(index, named);
      NamedFieldsOfIndex(index);
      FieldsWithoutIndexKeys(named);
    }
  }

  /** The sorted array-index fields all have array-index keys. */
  lemma SortedIndexKeys(row: Row)
    ensures forall i :: 0 <= i < |SortByIndex(IndexFields(row))| ==>
              IsArrayIndex(SortByIndex(IndexFields(row))[i].key)
  {
    var index := SortByIndex(IndexFields(row));
    FieldsSeparated(row);
    forall i | 0 <= i < |index| ensures IsArrayIndex(index[i].key) {
      assert index[i] in multiset(IndexFields(row));
      var m :| 0 <= m < |IndexFields(row)| && IndexFields(row)[m] == index[i];
    }
  }

  /** Taking the named fields distributes over concatenation. */
  lemma {:induction false} NamedFieldsAppend(a: Row, b: Row)
    ensures NamedFields(a + b) == NamedFields(a) + NamedFields(b)
    decreases |a|
  {
    if |a| == 0 {
      assert a + b == b;
    } else {
      assert (a + b)[1..] == a[1..] + b;
      NamedFieldsAppend(a[1..], b);
    }
  }

  /** A list of array-index fields has no named fields. */
  lemma {:induction false} NamedFieldsOfIndex(a: Row)
    requires forall i :: 0 <= i < |a| ==> IsArrayIndex(a[i].key)
    ensures NamedFields(a) == []
    decreases |a|
  {
    if |a| > 0 {
      NamedFieldsOfIndex(a[1..]);
    }
  }

  /** The keys of fields, in the order given. */
  function FieldKeys(fs: Row): (ks: seq<string>)
    ensures |ks| == |fs|
    ensures forall i :: 0 <= i < |fs| ==> ks[i] == fs[i].key
  {
    if |fs| == 0 then [] else [fs[0].key] + FieldKeys(fs[1..])
  }

  /** The values of fields, in the order given. */
  function FieldValues(fs: Row): (vs: seq<string>)
    ensures |vs| == |fs|
    ensures forall i :: 0 <= i < |fs| ==> vs[i] == fs[i].value
  {
    if |fs| == 0 then [] else [fs[0].value] + FieldValues(fs[1..])
  }

  /** `Object.keys(row)`: one key per field; when no column is named like
      an array index, the column names in header order. */
  function Keys(row: Row): (ks: seq<string>)
    ensures |ks| == |row|
    ensures NoIndexKeys(row) ==> forall i :: 0 <= i < |row| ==> ks[i] == row[i].key
  {
    FieldKeys(OwnOrder(row))
  }

  /** `Object.values(row)`: one value per field; when no column is named
      like an array index, the cells in header order. */
  function Values(row: Row): (vs: seq<string>)
    ensures |vs| == |row|
    ensures NoIndexKeys(row) ==> forall i :: 0 <= i < |row| ==> vs[i] == row[i].value
  {
    FieldValues(OwnOrder(row))
  }

  /** `Object.keys` and `Object.values` list the same fields in the same
      order, so the i-th key and the i-th value always belong together. */
  lemma KeysValuesPaired(row: Row)
    ensures forall i :: 0 <= i < |row| ==> Field(Keys(row)[i], Values(row)[i]) in row
  {
    forall i | 0 <= i < |row| ensures Field(Keys(row)[i], Values(row)[i]) in row {
      assert Field(Keys(row)[i], Values(row)[i]) == OwnOrder(row)[i];
    }
  }

  /** The keys of a concatenation are the keys of the parts. */
  lemma FieldKeysAppend(x: Row, y: Row)
    ensures FieldKeys(x + y) == FieldKeys(x) + FieldKeys(y)
  {
    var xy := x + y;
    assert |FieldKeys(xy)| == |FieldKeys(x) + FieldKeys(y)|;
    forall i | 0 <= i < |xy| ensures FieldKeys(xy)[i] == (FieldKeys(x) + FieldKeys(y))[i] {
      if i < |x| { assert xy[i] == x[i]; } else { assert xy[i] == y[i - |x|]; }
    }
  }

  /** Records with the same key list have the same tail key lists. */
  lemma FieldKeysTail(a: Row, b: Row)
    requires |a| >= 1 && FieldKeys(a) == FieldKeys(b)
    ensures a[0].key == b[0].key && FieldKeys(a[1..]) == FieldKeys(b[1..])
  {
    assert a[0].key == FieldKeys(a)[0];
    assert forall i :: 0 <= i < |a| - 1 ==> FieldKeys(a[1..])[i] == FieldKeys(a)[i + 1];
    assert forall i :: 0 <= i < |b| - 1 ==> FieldKeys(b[1..])[i] == FieldKeys(b)[i + 1];
  }

  /** A field in front of a list adds its key in front of the key list. */
  lemma FieldKeysCons(f: Field, x: Row)
    ensures FieldKeys([f] + x) == [f.key] + FieldKeys(x)
  {
    FieldKeysAppend([f], x);
  }

  /** Splitting records into array-index and named fields depends only on
      their keys. */
  lemma {:induction false} FiltersFollowKeys(a: Row, b: Row)
    requires FieldKeys(a) == FieldKeys(b)
    ensures FieldKeys(IndexFields(a)) == FieldKeys(IndexFields(b))
    ensures FieldKeys(NamedFields(a)) == FieldKeys(NamedFields(b))
    decreases |a|
  {
    if |a| > 0 {
      FieldKeysTail(a, b);
      FiltersFollowKeys(a[1..], b[1..]);
      if IsArrayIndex(a[0].key) {
        FieldKeysCons(a[0], IndexFields(a[1..]));
        FieldKeysCons(b[0], IndexFields(b[1..]));
      } else {
        FieldKeysCons(a[0], NamedFields(a[1..]));
        FieldKeysCons(b[0], NamedFields(b[1..]));
      }
    }
  }

  /** Being ascending depends only on the keys. */
  lemma AscendingFollowsKeys(x: Row, y: Row)
    requires FieldKeys(x) == FieldKeys(y) && Ascending(x)
    ensures Ascending(y)
  {
    forall i, j | 0 <= i < j < |y| ensures DecimalValue(y[i].key) <= DecimalValue(y[j].key) {
      assert y[i].key == FieldKeys(x)[i] && y[j].key == FieldKeys(x)[j];
    }
  }

  /** Inserting fields with the same key into lists with the same keys
      gives lists with the same keys. */
  lemma {:induction false} InsertFollowsKeys(f: Field, x: Row, g: Field, y: Row)
    requires f.key == g.key && FieldKeys(x) == FieldKeys(y) && Ascending(x) && Ascending(y)
    ensures FieldKeys(InsertByIndex(f, x)) == FieldKeys(InsertByIndex(g, y))
    decreases |x|
  {
    if |x| == 0 {
      FieldKeysCons(f, x);
      FieldKeysCons(g, y);
    } else {
      FieldKeysTail(x, y);
      if DecimalValue(f.key) <= DecimalValue(x[0].key) {
        FieldKeysCons(f, x);
        FieldKeysCons(g, y);
      } else {
        AscendingTail(x);
        AscendingTail(y);
        InsertFollowsKeys(f, x[1..], g, y[1..]);
        FieldKeysCons(x[0], InsertByIndex(f, x[1..]));
        FieldKeysCons(y[0], InsertByIndex(g, y[1..]));
      }
    }
  }

  /** Sorting lists with the same keys gives lists with the same keys. */
  lemma {:induction false} SortFollowsKeys(x: Row, y: Row)
    requires FieldKeys(x) == FieldKeys(y)
    ensures FieldKeys(SortByIndex(x)) == FieldKeys(SortByIndex(y))
    decreases |x|
  {
    if |x| > 0 {
      FieldKeysTail(x, y);
      SortFollowsKeys(x[1..], y[1..]);
      InsertFollowsKeys(x[0], SortByIndex(x[1..]), y[0], SortByIndex(y[1..]));
    }
  }

  /** `Object.keys` depends only on the keys a record was created with,
      in their creation order: records built with the same columns list
      the same keys, whatever their values. */
  lemma KeysFollowCreation(a: Row, b: Row)
    requires FieldKeys(a) == FieldKeys(b)
    ensures Keys(a) == Keys(b)
  {
    FiltersFollowKeys(a, b);
    SortFollowsKeys(IndexFields(a), IndexFields(b));
    FieldKeysAppend(SortByIndex(IndexFields(a)), NamedFields(a));
    FieldKeysAppend(SortByIndex(IndexFields(b)), NamedFields(b));
  }

  /** The upload path keeps values under their own headers across
      records: when every record was created with the first record's
      columns, the value in row `i` under the header `Keys(data[0])[j]` is
      record `i`'s value for that key. */
  lemma UploadAligned(data: seq<Row>)
    requires |data| >= 1
    requires forall i :: 0 <= i < |data| ==> FieldKeys(data[i]) == FieldKeys(data[0])
    ensures forall i, j :: 0 <= i < |data| && 0 <= j < |data[0]| ==> UnderOwnHeader(data, i, j)
  {
    forall i, j | 0 <= i < |data| && 0 <= j < |data[0]| ensures UnderOwnHeader(data, i, j) {
      KeysFollowCreation(data[i], data[0]);
      KeysValuesPaired(data[i]);
      assert |data[i]| == |FieldKeys(data[i])| == |FieldKeys(data[0])| == |data[0]|;
      assert ValuesEach(data)[i] == Values(data[i]);
    }
  }

  /** In the upload display, the value in row `i` under the `j`-th header
      is record `i`'s value for that header's key. */
  predicate UnderOwnHeader(data: seq<Row>, i: int, j: int)
    requires 0 <= i < |data| && 0 <= j < |data[0]|
  {
    j < |ValuesEach(data)[i]| && Field(Keys(data[0])[j], ValuesEach(data)[i][j]) in data[i]
  }

  /** Every value `Object.values` lists is the value of one of the fields. */
  lemma ValuesFromFields(row: Row, j: int)
    requires 0 <= j < |row|
    ensures exists i :: 0 <= i < |row| && Values(row)[j] == row[i].value
  {
    var f := OwnOrder(row)[j];
    var i :| 0 <= i < |row| && row[i] == f;
    assert Values(row)[j] == row[i].value;
  }

  /** `data.map(row => Object.values(row))`. */
  function ValuesEach(data: seq<Row>): (rows: seq<seq<string>>)
    ensures |rows| == |data|
    ensures forall i :: 0 <= i < |data| ==> rows[i] == Values(data[i])
  {
    if |data| == 0 then [] else [Values(data[0])] + ValuesEach(data[1..])
  }

  /** The display text of parsed records: the first record's keys as the
      header line, then every record's values. With no records there is no
      first record; on the upload path `Object.keys(undefined)` throws, on
      the example path the length guard emits nothing. Both are `None`. */
  function Display(data: seq<Row>): (r: Option<string>)
    ensures r.None? <==> |data| == 0
  {
    if |data| == 0 then None else Some(EncodeTsv(Keys(data[0]), ValuesEach(data)))
  }

  /** Round trip through the results view: when the first record has a
      column, every record has one, no key or value holds a tab or newline,
      and the text is not padded with whitespace, the table shown is the
      first record's keys over all records' values. */
  lemma DisplayRoundTrip(data: seq<Row>)
    requires |data| >= 1 && |data[0]| >= 1
    requires CleanCells(Keys(data[0]))
    requires forall i :: 0 <= i < |data| ==> |data[i]| >= 1 && CleanCells(Values(data[i]))
    requires Tight(Display(data).value)
    ensures ParseTsv(Display(data).value) == Table(Keys(data[0]), ValuesEach(data))
  {
    EncodeParse(Keys(data[0]), ValuesEach(data));
  }

  /** `fetchExampleCSV`: a parse error or an empty result emits nothing;
      otherwise the formatted text is handed on under the id `example`. */
  function ExampleDisplay(parsed: Option<ParseResult>): (r: Option<string>)
    ensures r.Some? <==> parsed.Some? && |parsed.value.data| > 0
    ensures r.Some? ==> Some(r.value) == Display(parsed.value.data)
  {
    if parsed.None? then None else Display(parsed.value.data)
  }

  /** `file.name.split('.').pop()`. */
  function Extension(name: string): (ext: string)
    ensures '.' !in ext
    ensures |ext| <= |name| && name[|name| - |ext|..] == ext
    ensures |ext| < |name| ==> name[|name| - |ext| - 1] == '.'
  {
    var pieces := Split(name, '.');
    LastPiece(name, '.');
    pieces[|pieces| - 1]
  }

  /** The last piece of a split is the text after the last separator, or
      the whole text when there is no separator. */
  lemma LastPiece(s: string, c: char)
    ensures var pieces := Split(s, c);
            var last := pieces[|pieces| - 1];
            && |last| <= |s| && s[|s| - |last|..] == last
            && (|last| < |s| ==> s[|s| - |last| - 1] == c)
  {
    var pieces := Split(s, c);
    var last := pieces[|pieces| - 1];
    assert Join(pieces, c) == s by {
      JoinSplit(s, c);
    }
    if |pieces| >= 2 {
      JoinLast(pieces, c);
      SuffixAfter(Join(pieces[..|pieces| - 1], c), c, last, s);
    }
  }

  /** In `front + [c] + last`, `last` is the suffix and `c` stands just
      before it. */
  lemma SuffixAfter(front: string, c: char, last: string, s: string)
    requires s == front + [c] + last
    ensures |last| < |s| && s[|s| - |last|..] == last && s[|s| - |last| - 1] == c
  {
  }

  /** The object-storage name: a random token, a dot and the extension. */
  function StorageName(token: string, name: string): string {
    token + "." + Extension(name)
  }

  /** The stored name keeps the original file's extension, whatever the
      token is. */
  lemma StorageNameExtension(token: string, name: string)
    ensures Extension(StorageName(token, name)) == Extension(name)
  {
    var ext := Extension(name);
    SplitAround(token, ext, '.');
    SplitNoSeparator(ext, '.');
    assert token + "." + ext == token + ['.'] + ext;
  }

  /** The number of records kept as the stored sample. */
  const SampleLimit: nat := 100

  /** `results.data.slice(0, 100)`. */
  function Sample<T>(data: seq<T>): (r: seq<T>)
    ensures |r| == Min(SampleLimit, |data|)
    ensures r <= data
  {
    data[..Min(SampleLimit, |data|)]
  }

  /** Status of a stored file. */
  datatype FileStatus = Processing | Ready | Error

  /** A row of the files table, apart from the identifier, owner and
      timestamps, which the database assigns. */
  datatype FileRecord = FileRecord(
    filename: string,
    originalName: string,
    sizeBytes: nat,
    mimeType: string,
    status: FileStatus,
    columnNames: seq<string>,
    sampleData: seq<Row>,
    rowCount: nat)

  /** A file record together with the identifier the database gave it. */
  datatype StoredFile = StoredFile(id: string, record: FileRecord)

  /** The user's chosen file as the browser reports it. */
  datatype LocalFile = LocalFile(name: string, size: nat, mimeType: string)

  /** The requests the upload sends to the hosted backend, in order. */
  datatype BackendCall = PutObject(name: string) | InsertRecord(record: FileRecord)

  datatype UploadError = ParseFailed | FormatFailed | StorageFailed | InsertFailed

  datatype UploadOutcome =
    | NoFile
    | Uploaded(file: StoredFile, display: string)
    | Failed(error: UploadError)

  datatype UploadRun = UploadRun(calls: seq<BackendCall>, outcome: UploadOutcome)

  /** The record `handleUpload` inserts for a file and its parse result. */
  function NewRecord(file: LocalFile, parsed: ParseResult, token: string): (rec: FileRecord)
    ensures rec.filename == StorageName(token, file.name)
    ensures rec.rowCount == |parsed.data|
    ensures rec.sampleData == Sample(parsed.data)
    ensures |rec.sampleData| <= SampleLimit && rec.sampleData <= parsed.data
    ensures |parsed.data| <= SampleLimit ==> rec.sampleData == parsed.data
    ensures rec.columnNames == parsed.fields
    ensures Extension(rec.filename) == Extension(file.name)
    ensures rec.originalName == file.name && rec.status == Ready
    ensures rec.sizeBytes == file.size && rec.mimeType == file.mimeType
  {
    StorageNameExtension(token, file.name);
    FileRecord(StorageName(token, file.name), file.name, file.size, file.mimeType, Ready,
               parsed.fields, Sample(parsed.data), |parsed.data|)
  }

  /** `handleUpload`. `parsed` is the parser's result (`None` for a parse
      error), `token` stands for the random number in the storage name,
      `stored` says whether the object upload succeeded and `inserted` is
      the new row's identifier (`None` when the insert failed). */
  function Upload(file: Option<LocalFile>, parsed: Option<ParseResult>, token: string,
                  stored: bool, inserted: Option<string>): (run: UploadRun)
    ensures file.None? ==> run == UploadRun([], NoFile)
    ensures file.Some? && parsed.None? ==> run == UploadRun([], Failed(ParseFailed))
    ensures file.Some? && parsed.Some? && |parsed.value.data| == 0 ==>
              run == UploadRun([], Failed(FormatFailed))
    ensures file.Some? && parsed.Some? && |parsed.value.data| > 0 && !stored ==>
              run == UploadRun([PutObject(StorageName(token, file.value.name))], Failed(StorageFailed))
    ensures file.Some? && parsed.Some? && |parsed.value.data| > 0 && stored ==>
              run.calls == [PutObject(StorageName(token, file.value.name)),
                            InsertRecord(NewRecord(file.value, parsed.value, token))]
    ensures file.Some? && parsed.Some? && |parsed.value.data| > 0 && stored ==>
              run.outcome == if inserted.None? then Failed(InsertFailed)
                             else Uploaded(StoredFile(inserted.value, NewRecord(file.value, parsed.value, token)),
                                           Display(parsed.value.data).value)
    ensures run.outcome.Uploaded? ==>
              && file.Some? && parsed.Some? && stored && inserted.Some?
              && run.outcome.file == StoredFile(inserted.value, NewRecord(file.value, parsed.value, token))
              && Some(run.outcome.display) == Display(parsed.value.data)
    ensures forall i :: 0 <= i < |run.calls| && run.calls[i].InsertRecord? ==>
              i == 1 && run.calls[0].PutObject? && stored
    ensures |run.calls| <= 2
  {
    if file.None? then UploadRun([], NoFile)
    else if parsed.None? then UploadRun([], Failed(ParseFailed))
    else if |parsed.value.data| == 0 then UploadRun([], Failed(FormatFailed))
    else StoreAndInsert(file.value, parsed.value, token, stored, inserted)
  }

  /** The part of `handleUpload` after the records were formatted: the
      object upload, then the insert of the file record. */
  function StoreAndInsert(file: LocalFile, parsed: ParseResult, token: string,
                          stored: bool, inserted: Option<string>): (run: UploadRun)
    requires |parsed.data| > 0
    ensures !stored ==> run == UploadRun([PutObject(StorageName(token, file.name))], Failed(StorageFailed))
    ensures stored ==> run.calls == [PutObject(StorageName(token, file.name)),
                                     InsertRecord(NewRecord(file, parsed, token))]
    ensures stored ==> run.outcome == if inserted.None? then Failed(InsertFailed)
                                      else Uploaded(StoredFile(inserted.value, NewRecord(file, parsed, token)),
                                                    Display(parsed.data).value)
  {
    var name := StorageName(token, file.name);
    var rec := NewRecord(file, parsed, token);
    if !stored then UploadRun([PutObject(name)], Failed(StorageFailed))
    else if inserted.None? then UploadRun([PutObject(name), InsertRecord(rec)], Failed(InsertFailed))
    else UploadRun([PutObject(name), InsertRecord(rec)],
                   Uploaded(StoredFile(inserted.value, rec), Display(parsed.data).value))
  }

  /** A successful upload stores exactly one object and inserts exactly one
      record, whose sample is the first `min(100, n)` records and whose row
      count is `n`, the number of parsed records, independent of the cap. */
  lemma UploadedRecord(file: Option<LocalFile>, parsed: Option<ParseResult>, token: string,
                       stored: bool, inserted: Option<string>)
    requires Upload(file, parsed, token, stored, inserted).outcome.Uploaded?
    ensures var run := Upload(file, parsed, token, stored, inserted);
            var rec := run.outcome.file.record;
            && run.calls == [PutObject(rec.filename), InsertRecord(rec)]
            && rec.rowCount == |parsed.value.data| >= 1
            && rec.sampleData == parsed.value.data[..Min(SampleLimit, rec.rowCount)]
  {
  }

  /** A failed insert leaves the already stored object in place: the run
      stores the object, attempts the insert and ends there, with no call
      that removes the object. */
  lemma InsertFailureKeepsObject(file: LocalFile, parsed: ParseResult, token: string)
    requires |parsed.data| > 0
    ensures Upload(Some(file), Some(parsed), token, true, None) ==
              UploadRun([PutObject(StorageName(token, file.name)),
                         InsertRecord(NewRecord(file, parsed, token))],
                        Failed(InsertFailed))
  {
  }
}

=== FILE: home_page.dfy ===
/** The home page: which file is selected and which result text is shown,
    and how selecting a stored file, finishing an upload and answering a
    query change them. */
module HomePage {
  import opened Base
  import opened JsString
  import opened ResultsTable
  import opened TsvFormat
  import opened FileUpload
  import opened QueryEditor

  /** The page's state: the identifier of the selected file (the query
      editor is shown only when there is one) and the result text. */
  datatype PageState = PageState(selected: Option<string>, queryResult: Option<string>)

  /** Nothing selected and no result. */
  const Initial: PageState := PageState(None, None)

  /** The results table is rendered under a selected file when the result
      text is present and non-empty (an empty string is falsy). */
  predicate ShowsTable(st: PageState) {
    st.selected.Some? && st.queryResult.Some? && st.queryResult.value != ""
  }

  /** The display text of a stored record: its column names as the header
      line, then the values of every sampled record. */
  function RecordDisplay(rec: FileRecord): string {
    EncodeTsv(rec.columnNames, ValuesEach(rec.sampleData))
  }

  /** `handleFileSelected`. `lookup` is the single-row query's result:
      `None` when it failed, which only logs. */
  function FileSelected(st: PageState, lookup: Option<StoredFile>): (r: PageState)
    ensures lookup.None? ==> r == st
    ensures lookup.Some? ==> r.selected == Some(lookup.value.id)
    ensures lookup.Some? ==> r.queryResult == Some(RecordDisplay(lookup.value.record))
    ensures lookup.Some? ==> ShowsTable(r)
  {
    match lookup
    case None => st
    case Some(f) =>
      var text := RecordDisplay(f.record);
      assert text[|Join(f.record.columnNames, '\t')|] == '\n';
      PageState(Some(f.id), Some(text))
  }

  /** The lines of a stored record's display: the column names joined by
      tabs, then each sampled record's values joined by tabs, in stored
      order, one line per sampled record, provided no name or value holds
      a newline. */
  lemma ReselectLines(rec: FileRecord)
    requires |rec.sampleData| >= 1
    requires forall j :: 0 <= j < |rec.columnNames| ==> '\n' !in rec.columnNames[j]
    requires forall i, j :: 0 <= i < |rec.sampleData| && 0 <= j < |rec.sampleData[i]| ==>
               '\n' !in rec.sampleData[i][j].value
    ensures var lines := Split(RecordDisplay(rec), '\n');
            && |lines| == 1 + |rec.sampleData|
            && lines[0] == Join(rec.columnNames, '\t')
            && forall i :: 0 <= i < |rec.sampleData| ==>
                 lines[i + 1] == Join(Values(rec.sampleData[i]), '\t')
  {
    var rows := ValuesEach(rec.sampleData);
    forall i, j | 0 <= i < |rows| && 0 <= j < |rows[i]| ensures '\n' !in rows[i][j] {
      ValuesFromFields(rec.sampleData[i], j);
      var k :| 0 <= k < |rec.sampleData[i]| && rows[i][j] == rec.sampleData[i][k].value;
    }
    EncodeLines(rec.columnNames, rows);
    var lines := Split(RecordDisplay(rec), '\n');
    forall i | 0 <= i < |rec.sampleData|
      ensures lines[i + 1] == Join(Values(rec.sampleData[i]), '\t')
    {
      assert lines[i + 1] == JoinEach(rows, '\t')[i];
    }
  }

  /** Re-selecting a file that was just uploaded shows at most 101 lines:
      the header line and at most 100 sampled records, however many
      records the file has. */
  lemma ReselectAfterUpload(file: Option<LocalFile>, parsed: Option<ParseResult>, token: string,
                            stored: bool, inserted: Option<string>)
    requires Upload(file, parsed, token, stored, inserted).outcome.Uploaded?
    requires forall j :: 0 <= j < |parsed.value.fields| ==> '\n' !in parsed.value.fields[j]
    requires forall i, j :: 0 <= i < |parsed.value.data| && 0 <= j < |parsed.value.data[i]| ==>
               '\n' !in parsed.value.data[i][j].value
    ensures var rec := Upload(file, parsed, token, stored, inserted).outcome.file.record;
            && 2 <= |Split(RecordDisplay(rec), '\n')| <= 1 + SampleLimit
            && |Split(RecordDisplay(rec), '\n')| == 1 + Min(SampleLimit, |parsed.value.data|)
  {
    var rec := Upload(file, parsed, token, stored, inserted).outcome.file.record;
    UploadedRecord(file, parsed, token, stored, inserted);
    var n := Min(SampleLimit, |parsed.value.data|);
    assert rec.sampleData == parsed.value.data[..n];
    forall i, j | 0 <= i < |rec.sampleData| && 0 <= j < |rec.sampleData[i]|
      ensures '\n' !in rec.sampleData[i][j].value
    {
      assert rec.sampleData[i] == parsed.value.data[i];
    }
    ReselectLines(rec);
  }

  /** When the parser's field list is the first record's keys and the file
      has at most 100 records, re-selecting a freshly uploaded file shows
      the same text the upload produced. */
  lemma ReselectMatchesUpload(file: Option<LocalFile>, parsed: Option<ParseResult>, token: string,
                              stored: bool, inserted: Option<string>)
    requires Upload(file, parsed, token, stored, inserted).outcome.Uploaded?
    requires |parsed.value.data| <= SampleLimit
    requires parsed.value.fields == Keys(parsed.value.data[0])
    ensures var out := Upload(file, parsed, token, stored, inserted).outcome;
            RecordDisplay(out.file.record) == out.display
  {
  }

  /** The field at `i` is the first one whose key is `name`. */
  predicate FirstWithKey(row: Row, name: string, i: int) {
    && 0 <= i < |row| && row[i].key == name
    && forall k :: 0 <= k < i ==> row[k].key != name
  }

  /** `row[name]` rendered by `join`: the value of the field named `name`,
      or the empty string when there is none (`join` renders `undefined`
      as the empty string). */
  function ValueAt(row: Row, name: string): (v: string)
    ensures (forall i :: 0 <= i < |row| ==> row[i].key != name) ==> v == ""
    ensures forall i :: FirstWithKey(row, name, i) ==> v == row[i].value
  {
    if |row| == 0 then ""
    else if row[0].key == name then row[0].value
    else
      var v := ValueAt(row[1..], name);
      assert forall i :: FirstWithKey(row, name, i) ==> v == row[i].value by {
        forall i | FirstWithKey(row, name, i) ensures v == row[i].value {
          assert FirstWithKey(row[1..], name, i - 1);
        }
      }
      v
  }

  /** One record's values read column by column. */
  function ColumnValues(names: seq<string>, row: Row): (vs: seq<string>)
    ensures |vs| == |names|
    ensures forall j :: 0 <= j < |names| ==> vs[j] == ValueAt(row, names[j])
  {
    if |names| == 0 then [] else [ValueAt(row, names[0])] + ColumnValues(names[1..], row)
  }

  /** Every record's values read column by column. */
  function ColumnValuesEach(names: seq<string>, data: seq<Row>): (rows: seq<seq<string>>)
    ensures |rows| == |data|
    ensures forall i :: 0 <= i < |data| ==> rows[i] == ColumnValues(names, data[i])
  {
    if |data| == 0 then [] else [ColumnValues(names, data[0])] + ColumnValuesEach(names, data[1..])
  }

  /** The display of a stored record with every value under its own
      column: the column names as the header line, then each sampled
      record's values taken by those names. */
  function AlignedDisplay(rec: FileRecord): string {
    EncodeTsv(rec.columnNames, ColumnValuesEach(rec.columnNames, rec.sampleData))
  }

  /** The column-by-column display agrees with the stored display whenever
      the latter is right: no column is named like an array index, the
      names are distinct and every sampled record has exactly those keys,
      in that order. */
  lemma AlignedAgrees(rec: FileRecord)
    requires forall j, k :: 0 <= j < k < |rec.columnNames| ==> rec.columnNames[j] != rec.columnNames[k]
    requires forall i :: 0 <= i < |rec.sampleData| ==>
               NoIndexKeys(rec.sampleData[i]) && FieldKeys(rec.sampleData[i]) == rec.columnNames
    ensures AlignedDisplay(rec) == RecordDisplay(rec)
  {
    var names := rec.columnNames;
    forall i | 0 <= i < |rec.sampleData|
      ensures ColumnValues(names, rec.sampleData[i]) == Values(rec.sampleData[i])
    {
      var row := rec.sampleData[i];
      forall j | 0 <= j < |names| ensures ColumnValues(names, row)[j] == Values(row)[j] {
        assert FirstWithKey(row, names[j], j);
      }
    }
    assert ColumnValuesEach(names, rec.sampleData) == ValuesEach(rec.sampleData);
  }

  /** The column-by-column display shows every value under its own
      column: the cell in row `i` under column `j` is the `i`-th sampled
      record's value for the `j`-th column name, whatever order the
      record's own properties are in. */
  lemma AlignedShown(rec: FileRecord)
    requires |rec.columnNames| >= 1 && CleanCells(rec.columnNames)
    requires |rec.sampleData| >= 1
    requires forall i :: 0 <= i < |rec.sampleData| ==>
               CleanCells(ColumnValues(rec.columnNames, rec.sampleData[i]))
    requires Tight(AlignedDisplay(rec))
    ensures var t := ParseTsv(AlignedDisplay(rec));
            && t.headers == rec.columnNames && |t.rows| == |rec.sampleData|
            && forall i, j :: 0 <= i < |rec.sampleData| && 0 <= j < |rec.columnNames| ==>
                 |t.rows[i]| == |rec.columnNames| &&
                 t.rows[i][j] == ValueAt(rec.sampleData[i], rec.columnNames[j])
  {
    EncodeParse(rec.columnNames, ColumnValuesEach(rec.columnNames, rec.sampleData));
  }

  /** `2023` is an array index and `name` is not. */
  lemma YearIsIndex()
    ensures IsArrayIndex("2023") && !IsArrayIndex("name")
  {
    assert "2023"[..3] == "202" && "202"[..2] == "20" && "20"[..1] == "2" && "2"[..0] == "";
    assert DecimalValue("2023") == 2023;
    assert "name"[0] == 'n';
  }

  /** The record of the example below, headed `name,2023`: its own
      properties list the `2023` column first. */
  lemma ExampleKeysValues()
    ensures Keys([Field("name", "x"), Field("2023", "y")]) == ["2023", "name"]
    ensures Values([Field("name", "x"), Field("2023", "y")]) == ["y", "x"]
  {
    var row := [Field("name", "x"), Field("2023", "y")];
    YearIsIndex();
    assert row[1..][1..] == [];
    assert IndexFields(row) == [Field("2023", "y")];
    assert NamedFields(row) == [Field("name", "x")];
    assert SortByIndex([Field("2023", "y")]) == InsertByIndex(Field("2023", "y"), []);
    assert OwnOrder(row) == [Field("2023", "y"), Field("name", "x")];
  }

  /** Read column by column, the same record keeps `x` under `name`. */
  lemma ExampleColumns()
    ensures ColumnValues(["name", "2023"], [Field("name", "x"), Field("2023", "y")]) == ["x", "y"]
  {
    var row := [Field("name", "x"), Field("2023", "y")];
    assert FirstWithKey(row, "name", 0);
    assert FirstWithKey(row, "2023", 1);
  }

  /** Re-selection misaligns a file one of whose columns is named like an
      array index. A file headed `name,2023` with one record `x,y` is
      shown on upload with the `2023` column first and each value under
      its own key. Re-selected, it shows the stored column names in header
      order over the values in own-property order, so `name` stands over
      `y`; the column-by-column display keeps `x` under `name`. */
  lemma ReselectMisaligned(file: LocalFile, token: string, id: string)
    ensures var parsed := ParseResult([[Field("name", "x"), Field("2023", "y")]], ["name", "2023"]);
            var out := Upload(Some(file), Some(parsed), token, true, Some(id)).outcome;
            && out.Uploaded?
            && out.display == EncodeTsv(["2023", "name"], [["y", "x"]])
            && RecordDisplay(out.file.record) == EncodeTsv(["name", "2023"], [["y", "x"]])
            && AlignedDisplay(out.file.record) == EncodeTsv(["name", "2023"], [["x", "y"]])
  {
    var row := [Field("name", "x"), Field("2023", "y")];
    var parsed := ParseResult([row], ["name", "2023"]);
    var out := Upload(Some(file), Some(parsed), token, true, Some(id)).outcome;
    var rec := NewRecord(file, parsed, token);
    ExampleKeysValues();
    ExampleColumns();
    assert out == Uploaded(StoredFile(id, rec), Display([row]).value);
    assert rec.sampleData == [row] && rec.columnNames == ["name", "2023"];
    assert ValuesEach([row]) == [["y", "x"]];
    assert ColumnValuesEach(["name", "2023"], [row]) == [["x", "y"]];
  }

  /** The result of a query replaces the shown result; the selection is kept. */
  function QueryAnswered(st: PageState, result: string): (r: PageState)
    ensures r.selected == st.selected && r.queryResult == Some(result)
    ensures ShowsTable(r) <==> st.selected.Some? && result != ""
  {
    st.(queryResult := Some(result))
  }

  /** A query answered without a `|` is always shown. */
  lemma PlainAnswerShown(st: PageState, answer: string)
    requires st.selected.Some? && '|' !in answer
    ensures ShowsTable(QueryAnswered(st, FormatAnswer(answer)))
  {
    assert FormatAnswer(answer)[0] == 'R';
  }

  /** The effect of a handler run: the state it leaves and whether it
      ended by throwing. */
  datatype HandlerRun = HandlerRun(state: PageState, threw: bool)

  /** The `data` argument `handleFileUploaded` receives, as a JavaScript
      value: a string, or an array of parsed records. */
  datatype HandlerArg = Text(text: string) | Records(rows: seq<Row>)

  /** `Object.keys(data[0])`, or `None` when it throws. Indexing a string
      gives its first character, whose only key is `0`; indexing an empty
      string or array gives `undefined`, on which `Object.keys` throws. */
  function FirstKeys(data: HandlerArg): (r: Option<seq<string>>)
    ensures r.None? <==> (data.Text? && data.text == "") || (data.Records? && data.rows == [])
    ensures data.Text? && r.Some? ==> r.value == ["0"]
    ensures data.Records? && r.Some? ==> r.value == Keys(data.rows[0])
  {
    match data
    case Text(s) => if |s| == 0 then None else Some(["0"])
    case Records(rows) => if |rows| == 0 then None else Some(Keys(rows[0]))
  }

  /** `data.map(row => Object.values(row).join('\t'))`, or `None` when it
      throws: a string has no `map` method. */
  function RowLines(data: HandlerArg): (r: Option<seq<string>>)
    ensures r.None? <==> data.Text?
    ensures data.Records? ==> r == Some(JoinEach(ValuesEach(data.rows), '\t'))
  {
    match data
    case Text(_) => None
    case Records(rows) => Some(JoinEach(ValuesEach(rows), '\t'))
  }

  /** `handleFileUploaded` as written: it selects the file, then builds the
      display text from `data` as if it were a record array, and throws
      when `Object.keys` or `map` does, leaving the shown result as it was. */
  function FileUploadedAsWritten(st: PageState, fileId: string, data: HandlerArg): (r: HandlerRun)
    ensures r.state.selected == Some(fileId)
    ensures r.threw <==> data.Text? || data.rows == []
    ensures r.threw ==> r.state.queryResult == st.queryResult
    ensures !r.threw ==> r.state == FileUploaded(st, fileId, Display(data.rows).value)
  {
    var selected := PageState(Some(fileId), st.queryResult);
    match FirstKeys(data)
    case None => HandlerRun(selected, true)
    case Some(keys) =>
      match RowLines(data)
      case None => HandlerRun(selected, true)
      case Some(lines) =>
        HandlerRun(selected.(queryResult := Some(Join(keys, '\t') + "\n" + Join(lines, '\n'))), false)
  }

  /** The upload component's call of the callback after `handleUpload`: a
      successful upload hands over the identifier and the display text;
      any other outcome calls nothing. */
  function AfterUpload(st: PageState, run: UploadRun): (r: HandlerRun)
    ensures run.outcome.Uploaded? ==>
              r == FileUploadedAsWritten(st, run.outcome.file.id, Text(run.outcome.display))
    ensures run.outcome.Uploaded? ==>
              && r.threw
              && r.state.selected == Some(run.outcome.file.id)
              && r.state.queryResult == st.queryResult
    ensures !run.outcome.Uploaded? ==> r == HandlerRun(st, false)
  {
    if run.outcome.Uploaded? then FileUploadedAsWritten(st, run.outcome.file.id, Text(run.outcome.display))
    else HandlerRun(st, false)
  }

  /** `fetchExampleCSV`'s call of the callback: when the example parses to
      at least one record its display text is handed over under the id
      `example`, and the handler as written throws on it, so the example
      is selected but its table is never shown. */
  function AfterExample(st: PageState, parsed: Option<ParseResult>): (r: HandlerRun)
    ensures parsed.Some? && |parsed.value.data| > 0 ==>
              && r.threw
              && r.state.selected == Some("example")
              && r.state.queryResult == st.queryResult
    ensures !(parsed.Some? && |parsed.value.data| > 0) ==> r == HandlerRun(st, false)
  {
    match ExampleDisplay(parsed)
    case None => HandlerRun(st, false)
    case Some(text) => FileUploadedAsWritten(st, "example", Text(text))
  }

  /** After a successful first upload, the page as written ends without a
      results table and with the handler throwing, although the upload
      produced non-empty display text. */
  lemma UploadNeverShown(file: Option<LocalFile>, parsed: Option<ParseResult>, token: string,
                         stored: bool, inserted: Option<string>)
    requires Upload(file, parsed, token, stored, inserted).outcome.Uploaded?
    ensures var out := Upload(file, parsed, token, stored, inserted).outcome;
            var r := AfterUpload(Initial, Upload(file, parsed, token, stored, inserted));
            && out.display != "" && r.threw && r.state.selected == Some(out.file.id)
            && !ShowsTable(r.state)
  {
    var out := Upload(file, parsed, token, stored, inserted).outcome;
    var data := parsed.value.data;
    assert out.display[|Join(Keys(data[0]), '\t')|] == '\n';
  }

  /** The handler as written does what is intended when it is handed the
      parsed records instead of their display text: it shows exactly the
      text the upload produced. */
  lemma RecordsWouldShow(file: Option<LocalFile>, parsed: Option<ParseResult>, token: string,
                         stored: bool, inserted: Option<string>, st: PageState)
    requires Upload(file, parsed, token, stored, inserted).outcome.Uploaded?
    ensures var out := Upload(file, parsed, token, stored, inserted).outcome;
            FileUploadedAsWritten(st, out.file.id, Records(parsed.value.data)) ==
              HandlerRun(FileUploaded(st, out.file.id, out.display), false)
  {
  }

  /** `handleFileUploaded` as intended: the uploaded file is selected and
      the display text it was handed is shown. */
  function FileUploaded(st: PageState, fileId: string, text: string): (r: PageState)
    ensures r.selected == Some(fileId) && r.queryResult == Some(text)
    ensures ShowsTable(r) <==> text != ""
  {
    PageState(Some(fileId), Some(text))
  }

  /** With the intended handler, a successful upload selects the new file
      and shows its records: the table rendered is the first record's keys
      over every record's values, under the same conditions as the display
      round trip. */
  lemma UploadShown(file: Option<LocalFile>, parsed: Option<ParseResult>, token: string,
                    stored: bool, inserted: Option<string>, st: PageState)
    requires Upload(file, parsed, token, stored, inserted).outcome.Uploaded?
    requires |parsed.value.data[0]| >= 1 && CleanCells(Keys(parsed.value.data[0]))
    requires forall i :: 0 <= i < |parsed.value.data| ==>
               |parsed.value.data[i]| >= 1 && CleanCells(Values(parsed.value.data[i]))
    requires Tight(Display(parsed.value.data).value)
    ensures var out := Upload(file, parsed, token, stored, inserted).outcome;
            var r := FileUploaded(st, out.file.id, out.display);
            && ShowsTable(r)
            && r.selected == Some(out.file.id)
            && ParseTsv(r.queryResult.value) ==
                 Table(Keys(parsed.value.data[0]), ValuesEach(parsed.value.data))
  {
    var out := Upload(file, parsed, token, stored, inserted).outcome;
    var data := parsed.value.data;
    assert out.display[|Join(Keys(data[0]), '\t')|] == '\n';
    DisplayRoundTrip(data);
  }
}

=== FILE: jsstring.dfy ===
/** The JavaScript string and array primitives the components rely on:
    `String.prototype.trim`, `String.prototype.split` with a one-character
    separator, `Array.prototype.join` with a one-character separator, and
    `filter` of empty strings. Strings are sequences of Unicode scalar values. */
module JsString {

  /** Code points of the ECMAScript WhiteSpace and LineTerminator
      productions: tab, line feed, vertical tab, form feed, carriage return,
      space, no-break space, the Unicode space separators, line and
      paragraph separator, and the byte order mark. These are what `trim`
      removes. */
  const WhitespaceCodes: set<int> := {
    0x09, 0x0A, 0x0B, 0x0C, 0x0D, 0x20, 0xA0, 0x1680,
    0x2000, 0x2001, 0x2002, 0x2003, 0x2004, 0x2005, 0x2006, 0x2007, 0x2008, 0x2009, 0x200A,
    0x2028, 0x2029, 0x202F, 0x205F, 0x3000, 0xFEFF
  }

  predicate IsWhitespace(c: char) {
    c as int in WhitespaceCodes
  }

  /** A string that neither begins nor ends with whitespace. */
  predicate Tight(s: string) {
    |s| == 0 || (!IsWhitespace(s[0]) && !IsWhitespace(s[|s| - 1]))
  }

  /** Every character of `s` from index `lo` up to (not including) `hi` is
      whitespace. */
  predicate WhitespaceIn(s: string, lo: int, hi: int)
    requires 0 <= lo <= hi <= |s|
  {
    forall k :: lo <= k < hi ==> IsWhitespace(s[k])
  }

  predicate AllWhitespace(s: string) {
    WhitespaceIn(s, 0, |s|)
  }

  /** Index of the first non-whitespace character of `s` at or after `i`
      (`|s|` when there is none). */
  function SkipStart(s: string, i: nat): (k: nat)
    requires i <= |s|
    ensures i <= k <= |s|
    ensures WhitespaceIn(s, i, k)
    ensures k == |s| || !IsWhitespace(s[k])
    decreases |s| - i
  {
    if i < |s| && IsWhitespace(s[i]) then SkipStart(s, i + 1) else i
  }

  /** One past the index of the last non-whitespace character of `s` before
      `j`, looking no further back than `lo` (`lo` when there is none). */
  function SkipEnd(s: string, lo: nat, j: nat): (k: nat)
    requires lo <= j <= |s|
    ensures lo <= k <= j
    ensures WhitespaceIn(s, k, j)
    ensures k == lo || !IsWhitespace(s[k - 1])
    decreases j
  {
    if j > lo && IsWhitespace(s[j - 1]) then SkipEnd(s, lo, j - 1) else j
  }

  /** `r` is what is left of `s` once the whitespace before position `i` and
      after position `i + |r|` is cut away. */
  predicate IsTrimOf(s: string, i: int, r: string) {
    && 0 <= i <= i + |r| <= |s|
    && r == s[i..i + |r|]
    && WhitespaceIn(s, 0, i)
    && WhitespaceIn(s, i + |r|, |s|)
  }

  /** `String.prototype.trim`: the slice of `s` between its leading and its
      trailing whitespace. */
  function Trim(s: string): (r: string)
    ensures Tight(r)
    ensures IsTrimOf(s, SkipStart(s, 0), r)
  {
    var a := SkipStart(s, 0);
    var b := SkipEnd(s, a, |s|);
    assert b == a || !IsWhitespace(s[a]);
    s[a..b]
  }

  /** Trimming keeps every character it does not remove. */
  lemma TrimChars(s: string, c: char)
    requires c !in s
    ensures c !in Trim(s)
  {
    var r := Trim(s);
    var i := SkipStart(s, 0);
    forall k | 0 <= k < |r| ensures r[k] != c {
      assert r[k] == s[i + k];
    }
  }

  /** Trimming a string that neither begins nor ends with whitespace leaves
      it unchanged. */
  lemma TrimTight(s: string)
    requires Tight(s)
    ensures Trim(s) == s
  {
    if |s| > 0 {
      assert SkipStart(s, 0) == 0;
      assert SkipEnd(s, 0, |s|) == |s|;
    }
    assert s[0..|s|] == s;
  }

  /** Trimming only ever yields the empty string for an all-whitespace input. */
  lemma TrimEmpty(s: string)
    ensures Trim(s) == "" <==> AllWhitespace(s)
  {
    var i := SkipStart(s, 0);
    if Trim(s) == "" {
      assert WhitespaceIn(s, 0, i) && WhitespaceIn(s, i, |s|);
    } else {
      assert s[i] == Trim(s)[0];
    }
  }

  lemma {:induction false} SkipStartAt(s: string, i: nat, k: nat)
    requires i <= k < |s|
    requires WhitespaceIn(s, i, k) && !IsWhitespace(s[k])
    ensures SkipStart(s, i) == k
    decreases k - i
  {
    if i < k {
      SkipStartAt(s, i + 1, k);
    }
  }

  lemma {:induction false} SkipEndAt(s: string, lo: nat, k: nat, j: nat)
    requires lo < k <= j <= |s|
    requires WhitespaceIn(s, k, j) && !IsWhitespace(s[k - 1])
    ensures SkipEnd(s, lo, j) == k
    decreases j
  {
    if k < j {
      SkipEndAt(s, lo, k, j - 1);
    }
  }

  /** Trimming the end stops after any non-whitespace character. */
  lemma {:induction false} SkipEndPast(s: string, lo: nat, m: nat, j: nat)
    requires lo <= m < j <= |s|
    requires !IsWhitespace(s[m])
    ensures SkipEnd(s, lo, j) > m
    decreases j
  {
    if j - 1 > m {
      SkipEndPast(s, lo, m, j - 1);
    }
  }

  /** Trimming characterised without reference to how it is computed: if
      `s` is `r` surrounded by whitespace and `r` is tight and non-empty,
      then `Trim(s)` is `r`. */
  lemma TrimUnique(w1: string, r: string, w2: string)
    requires AllWhitespace(w1) && AllWhitespace(w2)
    requires Tight(r) && |r| > 0
    ensures Trim(w1 + r + w2) == r
  {
    var s := w1 + r + w2;
    var a := |w1|;
    var b := |w1| + |r|;
    assert s[a] == r[0] && s[b - 1] == r[|r| - 1];
    forall k | 0 <= k < a ensures IsWhitespace(s[k]) {
      assert s[k] == w1[k];
    }
    forall k | b <= k < |s| ensures IsWhitespace(s[k]) {
      assert s[k] == w2[k - b];
    }
    SkipStartAt(s, 0, a);
    SkipEndAt(s, a, b, |s|);
    assert s[a..b] == r;
  }

  /** Number of occurrences of `c` in `s`. */
  function Occurrences(s: string, c: char): nat {
    if |s| == 0 then 0 else (if s[0] == c then 1 else 0) + Occurrences(s[1..], c)
  }

  /** `s.split(c)` for a one-character separator `c`: the maximal
      `c`-free pieces between separators, always at least one. */
  function Split(s: string, c: char): (r: seq<string>)
    ensures |r| == Occurrences(s, c) + 1
    ensures forall i :: 0 <= i < |r| ==> c !in r[i]
    decreases |s|
  {
    if |s| == 0 then [""]
    else
      var rest := Split(s[1..], c);
      if s[0] == c then [""] + rest
      else [[s[0]] + rest[0]] + rest[1..]
  }

  /** `xs.join(c)`: the elements with `c` between neighbours; `[]` joins to `""`. */
  function Join(xs: seq<string>, c: char): string {
    if |xs| == 0 then ""
    else if |xs| == 1 then xs[0]
    else xs[0] + [c] + Join(xs[1..], c)
  }

  /** `join` undoes `split`: joining the pieces gives back the original text. */
  lemma {:induction false} JoinSplit(s: string, c: char)
    ensures Join(Split(s, c), c) == s
    decreases |s|
  {
    if |s| > 0 {
      var rest := Split(s[1..], c);
      JoinSplit(s[1..], c);
      if s[0] == c {
        assert ([""] + rest)[1..] == rest;
        assert s == [c] + s[1..];
      } else {
        JoinExtendHead(s[0], rest, c);
        assert s == [s[0]] + s[1..];
      }
    }
  }

  lemma JoinExtendHead(x: char, rest: seq<string>, c: char)
    requires |rest| >= 1
    ensures Join([[x] + rest[0]] + rest[1..], c) == [x] + Join(rest, c)
  {
    var xs := [[x] + rest[0]] + rest[1..];
    if |rest| > 1 {
      assert xs[1..] == rest[1..];
    }
  }

  /** Joining splits off the last element behind the last separator. */
  lemma {:induction false} JoinLast(xs: seq<string>, c: char)
    requires |xs| >= 2
    ensures Join(xs, c) == Join(xs[..|xs| - 1], c) + [c] + xs[|xs| - 1]
    decreases |xs|
  {
    if |xs| > 2 {
      JoinLast(xs[1..], c);
      assert xs[1..][..|xs| - 2] == xs[..|xs| - 1][1..];
    }
  }

  /** A text with no separator splits into itself. */
  lemma {:induction false} SplitNoSeparator(s: string, c: char)
    requires c !in s
    ensures Split(s, c) == [s]
    decreases |s|
  {
    if |s| > 0 {
      SplitNoSeparator(s[1..], c);
      assert [s[0]] + s[1..] == s;
    }
  }

  /** Splitting distributes over a separator: the pieces of `a + c + b` are
      the pieces of `a` followed by the pieces of `b`. */
  lemma {:induction false} SplitAround(a: string, b: string, c: char)
    ensures Split(a + [c] + b, c) == Split(a, c) + Split(b, c)
    decreases |a|
  {
    if |a| == 0 {
      assert (a + [c] + b)[1..] == b;
    } else {
      var t := a[1..];
      assert a + [c] + b == [a[0]] + (t + [c] + b);
      assert a == [a[0]] + t;
      SplitCons(a[0], t + [c] + b, c);
      SplitCons(a[0], t, c);
      SplitAround(t, b, c);
      PrependPiece(a[0], c, Split(t, c), Split(b, c));
    }
  }

  /** Splitting a text that starts with `x` extends the first piece of the
      rest by `x`, or starts a new empty piece when `x` is the separator. */
  lemma SplitCons(x: char, t: string, c: char)
    ensures Split([x] + t, c) == Prepend(x, c, Split(t, c))
  {
    assert ([x] + t)[1..] == t;
  }

  /** The pieces of `[x] + t`, given the pieces `p` of `t`. */
  function Prepend(x: char, c: char, p: seq<string>): seq<string>
    requires |p| >= 1
  {
    if x == c then [""] + p else [[x] + p[0]] + p[1..]
  }

  lemma PrependPiece(x: char, c: char, p: seq<string>, q: seq<string>)
    requires |p| >= 1
    ensures Prepend(x, c, p + q) == Prepend(x, c, p) + q
  {
    if x != c {
      assert (p + q)[1..] == p[1..] + q;
    }
  }

  /** `split` undoes `join` when no element contains the separator and
      there is at least one element. */
  lemma {:induction false} SplitJoin(xs: seq<string>, c: char)
    requires |xs| >= 1
    requires forall i :: 0 <= i < |xs| ==> c !in xs[i]
    ensures Split(Join(xs, c), c) == xs
    decreases |xs|
  {
    SplitNoSeparator(xs[0], c);
    if |xs| > 1 {
      SplitJoin(xs[1..], c);
      SplitAround(xs[0], Join(xs[1..], c), c);
      assert [xs[0]] + xs[1..] == xs;
    }
  }

  /** Every piece of a split is a piece of the text, so a character absent
      from the text is absent from every piece. */
  lemma {:induction false} SplitChars(s: string, c: char, d: char)
    requires d !in s
    ensures forall i :: 0 <= i < |Split(s, c)| ==> d !in Split(s, c)[i]
    decreases |s|
  {
    if |s| > 0 {
      SplitChars(s[1..], c, d);
    }
  }

  /** A character that is not the separator occurs in a join only if it
      occurs in one of the joined elements. */
  lemma {:induction false} JoinChars(xs: seq<string>, c: char, d: char)
    requires d != c
    requires forall i :: 0 <= i < |xs| ==> d !in xs[i]
    ensures d !in Join(xs, c)
    decreases |xs|
  {
    if |xs| > 1 {
      JoinChars(xs[1..], c, d);
    }
  }

  /** Joined non-empty, tight pieces give a non-empty, tight text. */
  lemma {:induction false} JoinTight(xs: seq<string>, c: char)
    requires |xs| >= 1
    requires forall i :: 0 <= i < |xs| ==> xs[i] != "" && Tight(xs[i])
    ensures Join(xs, c) != ""
    ensures Join(xs, c)[0] == xs[0][0]
    ensures Join(xs, c)[|Join(xs, c)| - 1] == xs[|xs| - 1][|xs[|xs| - 1]| - 1]
    ensures Tight(Join(xs, c))
    decreases |xs|
  {
    if |xs| > 1 {
      JoinTight(xs[1..], c);
    }
  }

  /** A join of non-empty strings is empty exactly when there is nothing to join. */
  lemma JoinEmpty(xs: seq<string>, c: char)
    requires forall i :: 0 <= i < |xs| ==> xs[i] != ""
    ensures Join(xs, c) == "" <==> |xs| == 0
  {
  }

  /** `xs.filter(x => x)` on strings: the empty strings are dropped and the
      others kept in order. */
  function DropEmpty(xs: seq<string>): (r: seq<string>)
    ensures |r| <= |xs|
    ensures forall i :: 0 <= i < |r| ==> r[i] != ""
    ensures forall x :: x in r <==> x in xs && x != ""
  {
    if |xs| == 0 then []
    else (if xs[0] == "" then [] else [xs[0]]) + DropEmpty(xs[1..])
  }

  /** Number of empty strings in `xs`. */
  function Blanks(xs: seq<string>): nat {
    if |xs| == 0 then 0 else (if xs[0] == "" then 1 else 0) + Blanks(xs[1..])
  }

  /** Dropping is position-blind: exactly the blank entries disappear. */
  lemma {:induction false} DropEmptyLength(xs: seq<string>)
    ensures |DropEmpty(xs)| == |xs| - Blanks(xs)
    decreases |xs|
  {
    if |xs| > 0 {
      DropEmptyLength(xs[1..]);
    }
  }

  /** Dropping empties commutes with concatenation, so the relative order of
      the kept elements is the order of the input. */
  lemma {:induction false} DropEmptyAppend(a: seq<string>, b: seq<string>)
    ensures DropEmpty(a + b) == DropEmpty(a) + DropEmpty(b)
    decreases |a|
  {
    if |a| == 0 {
      assert a + b == b;
    } else {
      assert (a + b)[1..] == a[1..] + b;
      DropEmptyAppend(a[1..], b);
    }
  }

  /** A sequence without empty strings is kept whole. */
  lemma {:induction false} DropEmptyKeeps(xs: seq<string>)
    requires forall i :: 0 <= i < |xs| ==> xs[i] != ""
    ensures DropEmpty(xs) == xs
    decreases |xs|
  {
    if |xs| > 0 {
      DropEmptyKeeps(xs[1..]);
      assert [xs[0]] + xs[1..] == xs;
    }
  }

  /** `xs.map(x => x.trim())`. */
  function TrimEach(xs: seq<string>): (r: seq<string>)
    ensures |r| == |xs|
    ensures forall i :: 0 <= i < |r| ==> r[i] == Trim(xs[i])
  {
    if |xs| == 0 then [] else [Trim(xs[0])] + TrimEach(xs[1..])
  }

  /** Trimming texts without outer whitespace changes none of them. */
  lemma TrimEachTight(xs: seq<string>)
    requires forall i :: 0 <= i < |xs| ==> Tight(xs[i])
    ensures TrimEach(xs) == xs
  {
    var r := TrimEach(xs);
    forall i | 0 <= i < |xs| ensures r[i] == xs[i] {
      TrimTight(xs[i]);
    }
  }

  /** `rows.map(row => row.join(c))`. */
  function JoinEach(rows: seq<seq<string>>, c: char): (r: seq<string>)
    ensures |r| == |rows|
    ensures forall i :: 0 <= i < |r| ==> r[i] == Join(rows[i], c)
  {
    if |rows| == 0 then [] else [Join(rows[0], c)] + JoinEach(rows[1..], c)
  }

  /** `lines.map(line => line.split(c))`. */
  function SplitEach(lines: seq<string>, c: char): (r: seq<seq<string>>)
    ensures |r| == |lines|
    ensures forall i :: 0 <= i < |r| ==> r[i] == Split(lines[i], c)
  {
    if |lines| == 0 then [] else [Split(lines[0], c)] + SplitEach(lines[1..], c)
  }
}

=== FILE: query_editor.dfy ===
/** The query editor: the guard against empty queries and the
    normalisation of the model's answer into tab-separated display text. */
module QueryEditor {
  import opened Base
  import opened JsString
  import opened ResultsTable
  import opened TsvFormat

  /** `cell` is one of the `|`-separated pieces of `line`, trimmed. */
  predicate TrimmedPiece(line: string, cell: string) {
    exists k :: 0 <= k < |Split(line, '|')| && cell == Trim(Split(line, '|')[k])
  }

  /** The cells of one line of a pipe-delimited answer: the line split on
      `|`, each piece trimmed, the pieces left empty dropped. */
  function PipeRow(line: string): (cells: seq<string>)
    ensures forall j :: 0 <= j < |cells| ==> cells[j] != "" && Tight(cells[j]) && '|' !in cells[j]
    ensures forall j :: 0 <= j < |cells| ==> TrimmedPiece(line, cells[j])
    ensures '\n' !in line ==> forall j :: 0 <= j < |cells| ==> '\n' !in cells[j]
  {
    var pieces := Split(line, '|');
    var trimmed := TrimEach(pieces);
    var cells := DropEmpty(trimmed);
    forall j | 0 <= j < |cells|
      ensures Tight(cells[j]) && '|' !in cells[j]
      ensures TrimmedPiece(line, cells[j])
      ensures '\n' !in line ==> '\n' !in cells[j]
    {
      assert cells[j] in cells;
      var k :| 0 <= k < |trimmed| && trimmed[k] == cells[j];
      assert cells[j] == Trim(pieces[k]);
      TrimChars(pieces[k], '|');
      if '\n' !in line {
        SplitChars(line, '|', '\n');
        TrimChars(pieces[k], '\n');
      }
    }
    cells
  }

  /** `lines.map(line => PipeRow(line).join('\t'))`. */
  function RowTexts(lines: seq<string>): (texts: seq<string>)
    ensures |texts| == |lines|
    ensures forall i :: 0 <= i < |lines| ==> texts[i] == Join(PipeRow(lines[i]), '\t')
  {
    if |lines| == 0 then [] else [Join(PipeRow(lines[0]), '\t')] + RowTexts(lines[1..])
  }

  /** The output lines of the table branch: every `\n`-line of the answer
      turned into a tab-joined row, the rows left empty dropped. */
  function PipeLines(answer: string): (lines: seq<string>)
    ensures |lines| <= |Split(answer, '\n')|
    ensures forall i :: 0 <= i < |lines| ==>
              lines[i] != "" && Tight(lines[i]) && '\n' !in lines[i] && '|' !in lines[i]
  {
    var source := Split(answer, '\n');
    var texts := RowTexts(source);
    var lines := DropEmpty(texts);
    RowTextsShape(source);
    forall i | 0 <= i < |lines| ensures Tight(lines[i]) && '\n' !in lines[i] && '|' !in lines[i] {
      assert lines[i] in lines;
    }
    lines
  }

  /** Every row text of newline-free lines starts and ends with a
      non-whitespace character and holds neither a newline nor a pipe. */
  lemma RowTextsShape(source: seq<string>)
    requires forall k :: 0 <= k < |source| ==> '\n' !in source[k]
    ensures forall t :: t in RowTexts(source) ==> Tight(t) && '\n' !in t && '|' !in t
  {
    var texts := RowTexts(source);
    forall t | t in texts ensures Tight(t) && '\n' !in t && '|' !in t {
      var k :| 0 <= k < |texts| && texts[k] == t;
      RowTextShape(source[k]);
    }
  }

  /** A row's text is empty exactly when the row has no cells; otherwise it
      starts and ends with a cell's non-whitespace character. It holds no
      `|`, and no newline when its line holds none. */
  lemma RowTextShape(line: string)
    ensures var text := Join(PipeRow(line), '\t');
            && (text == "" <==> PipeRow(line) == [])
            && Tight(text) && '|' !in text
            && ('\n' !in line ==> '\n' !in text)
  {
    var cells := PipeRow(line);
    JoinEmpty(cells, '\t');
    if |cells| > 0 {
      JoinTight(cells, '\t');
    }
    JoinChars(cells, '\t', '|');
    if '\n' !in line {
      JoinChars(cells, '\t', '\n');
    }
  }

  /** The table branch of `handleSubmit`: the kept lines joined by newlines. */
  function PipeToTsv(answer: string): (r: string)
    ensures '|' !in r
  {
    var lines := PipeLines(answer);
    JoinChars(lines, '\n', '|');
    Join(lines, '\n')
  }

  /** `handleSubmit`'s normalisation of a string answer: an answer holding
      a `|` is read as a pipe table, any other answer is wrapped as a
      one-column table under the header `Response`. */
  function FormatAnswer(answer: string): (r: string)
    ensures '|' !in answer ==> r == "Response\n" + answer
    ensures '|' in answer ==> r == PipeToTsv(answer) && '|' !in r
  {
    if '|' in answer then PipeToTsv(answer) else "Response\n" + answer
  }

  /** Every line of the table-branch output is non-empty and starts and
      ends with a non-whitespace character, and there are no more lines
      than the answer had. */
  lemma PipeOutputLines(answer: string)
    ensures var out := Split(PipeToTsv(answer), '\n');
            && |out| <= |Split(answer, '\n')|
            && (out == [""] || forall i :: 0 <= i < |out| ==> out[i] != "" && Tight(out[i]))
  {
    var lines := PipeLines(answer);
    if |lines| == 0 {
      assert PipeToTsv(answer) == "";
    } else {
      SplitJoin(lines, '\n');
    }
  }

  /** Lines are treated independently and keep their order: the output
      lines of two answer parts joined by a newline are the output lines of
      the first part followed by those of the second. */
  lemma PipeLinesAppend(a: string, b: string)
    ensures PipeLines(a + "\n" + b) == PipeLines(a) + PipeLines(b)
  {
    assert a + "\n" + b == a + ['\n'] + b;
    SplitAround(a, b, '\n');
    RowTextsAppend(Split(a, '\n'), Split(b, '\n'));
    DropEmptyAppend(RowTexts(Split(a, '\n')), RowTexts(Split(b, '\n')));
  }

  lemma RowTextsAppend(x: seq<string>, y: seq<string>)
    ensures RowTexts(x + y) == RowTexts(x) + RowTexts(y)
  {
    var xy := x + y;
    var l := RowTexts(xy);
    var r := RowTexts(x) + RowTexts(y);
    assert |l| == |r|;
    forall i | 0 <= i < |l| ensures l[i] == r[i] {
      if i < |x| {
        assert xy[i] == x[i];
      } else {
        assert xy[i] == y[i - |x|];
      }
    }
  }

  /** Cells are likewise independent of each other: dropping a blank cell
      shifts the later cells left rather than leaving a gap. */
  lemma PipeRowAppend(a: string, b: string)
    ensures PipeRow(a + "|" + b) == PipeRow(a) + PipeRow(b)
  {
    assert a + "|" + b == a + ['|'] + b;
    SplitAround(a, b, '|');
    TrimEachAppend(Split(a, '|'), Split(b, '|'));
    DropEmptyAppend(TrimEach(Split(a, '|')), TrimEach(Split(b, '|')));
  }

  lemma TrimEachAppend(x: seq<string>, y: seq<string>)
    ensures TrimEach(x + y) == TrimEach(x) + TrimEach(y)
  {
    var xy := x + y;
    var l := TrimEach(xy);
    var r := TrimEach(x) + TrimEach(y);
    assert |l| == |r|;
    forall i | 0 <= i < |l| ensures l[i] == r[i] {
      if i < |x| {
        assert xy[i] == x[i];
      } else {
        assert xy[i] == y[i - |x|];
      }
    }
  }

  /** Cells that are non-empty, pipe-free and not padded with whitespace
      come back unchanged from the line they are joined into. */
  lemma PipeRowOfCells(cells: seq<string>)
    requires |cells| >= 1
    requires forall i :: 0 <= i < |cells| ==> cells[i] != "" && Tight(cells[i]) && '|' !in cells[i]
    ensures PipeRow(Join(cells, '|')) == cells
  {
    assert Split(Join(cells, '|'), '|') == cells by {
      SplitJoin(cells, '|');
    }
    assert TrimEach(cells) == cells by {
      TrimEachTight(cells);
    }
    assert DropEmpty(cells) == cells by {
      DropEmptyKeeps(cells);
    }
  }

  /** A cell written with whitespace on either side, `  c  `, is read back
      as `c` alone. */
  lemma PaddedCell(w1: string, c: string, w2: string)
    requires AllWhitespace(w1) && AllWhitespace(w2)
    requires c != "" && Tight(c) && '|' !in c
    ensures PipeRow(w1 + c + w2) == [c]
  {
    var s := w1 + c + w2;
    assert '|' !in s by {
      assert !IsWhitespace('|');
      forall k | 0 <= k < |s| ensures s[k] != '|' {
        if k < |w1| {
          assert s[k] == w1[k] && IsWhitespace(w1[k]);
        } else if k < |w1| + |c| {
          assert s[k] == c[k - |w1|];
        } else {
          assert s[k] == w2[k - |w1| - |c|] && IsWhitespace(w2[k - |w1| - |c|]);
        }
      }
    }
    SplitNoSeparator(s, '|');
    TrimUnique(w1, c, w2);
    assert TrimEach([s]) == [c];
    DropEmptyKeeps([c]);
  }

  /** Each cell `cells[i]` written between the whitespace `left[i]` and
      `right[i]`. */
  function Padded(left: seq<string>, cells: seq<string>, right: seq<string>): (r: seq<string>)
    requires |left| == |cells| == |right|
    ensures |r| == |cells|
    ensures forall i :: 0 <= i < |r| ==> r[i] == left[i] + cells[i] + right[i]
  {
    if |cells| == 0 then []
    else [left[0] + cells[0] + right[0]] + Padded(left[1..], cells[1..], right[1..])
  }

  /** Whatever whitespace surrounds them, non-empty pipe-free cells joined
      by `|` come back as exactly those cells, trimmed. */
  lemma {:induction false} PaddedRowOfCells(left: seq<string>, cells: seq<string>, right: seq<string>)
    requires |cells| >= 1 && |left| == |cells| == |right|
    requires forall i :: 0 <= i < |cells| ==> AllWhitespace(left[i]) && AllWhitespace(right[i])
    requires forall i :: 0 <= i < |cells| ==> cells[i] != "" && Tight(cells[i]) && '|' !in cells[i]
    ensures PipeRow(Join(Padded(left, cells, right), '|')) == cells
    decreases |cells|
  {
    var p := Padded(left, cells, right);
    PaddedCell(left[0], cells[0], right[0]);
    if |cells| > 1 {
      var tail := Padded(left[1..], cells[1..], right[1..]);
      assert p[1..] == tail;
      assert Join(p, '|') == p[0] + "|" + Join(tail, '|');
      PipeRowAppend(p[0], Join(tail, '|'));
      PaddedRowOfCells(left[1..], cells[1..], right[1..]);
      assert cells == [cells[0]] + cells[1..];
    }
  }

  /** A Markdown table row `| c1 | ... | cn |` gives back exactly its
      cells, however each cell is padded: the blank pieces outside the outer
      pipes are dropped and nothing else is. So a separator row
      `| --- | --- |` is kept as a row of `---` cells. */
  lemma FramedRow(left: seq<string>, cells: seq<string>, right: seq<string>)
    requires |cells| >= 1 && |left| == |cells| == |right|
    requires forall i :: 0 <= i < |cells| ==> AllWhitespace(left[i]) && AllWhitespace(right[i])
    requires forall i :: 0 <= i < |cells| ==> cells[i] != "" && Tight(cells[i]) && '|' !in cells[i]
    ensures PipeRow("|" + Join(Padded(left, cells, right), '|') + "|") == cells
  {
    OuterPipes(Join(Padded(left, cells, right), '|'));
    PaddedRowOfCells(left, cells, right);
  }

  /** Pipes around a line add no cells. */
  lemma OuterPipes(line: string)
    ensures PipeRow("|" + line + "|") == PipeRow(line)
  {
    var p := Split(line, '|');
    var framed := [""] + p + [""];
    assert Split("|" + line + "|", '|') == framed by {
      assert "|" + line + "|" == "" + ['|'] + (line + ['|'] + "");
      SplitAround(line, "", '|');
      SplitAround("", line + ['|'] + "", '|');
    }
    assert TrimEach(framed) == [""] + TrimEach(p) + [""] by {
      TrimEachAppend([""], p);
      TrimEachAppend([""] + p, [""]);
      assert TrimEach([""]) == [""];
    }
    assert DropEmpty([""] + TrimEach(p) + [""]) == DropEmpty(TrimEach(p)) by {
      DropEmptyAppend([""], TrimEach(p));
      DropEmptyAppend([""] + TrimEach(p), [""]);
    }
  }

  /** Number of pieces that hold only whitespace. */
  function BlankPieces(pieces: seq<string>): nat {
    if |pieces| == 0 then 0
    else (if AllWhitespace(pieces[0]) then 1 else 0) + BlankPieces(pieces[1..])
  }

  /** The width of a row is the number of `|`-pieces of its line that hold
      something other than whitespace. */
  lemma PipeRowWidth(line: string)
    ensures |PipeRow(line)| == |Split(line, '|')| - BlankPieces(Split(line, '|'))
  {
    var pieces := Split(line, '|');
    DropEmptyLength(TrimEach(pieces));
    BlanksTrimmed(pieces);
  }

  lemma {:induction false} BlanksTrimmed(pieces: seq<string>)
    ensures Blanks(TrimEach(pieces)) == BlankPieces(pieces)
    decreases |pieces|
  {
    if |pieces| > 0 {
      TrimEmpty(pieces[0]);
      BlanksTrimmed(pieces[1..]);
      assert TrimEach(pieces)[1..] == TrimEach(pieces[1..]);
    }
  }

  /** The rows of the table branch before joining: every answer line's
      cells, lines without cells dropped. */
  function PipeTable(lines: seq<string>): (rows: seq<seq<string>>)
    ensures |rows| <= |lines|
    ensures forall i :: 0 <= i < |rows| ==> |rows[i]| >= 1
  {
    if |lines| == 0 then []
    else (if PipeRow(lines[0]) == [] then [] else [PipeRow(lines[0])]) + PipeTable(lines[1..])
  }

  /** Filtering joined lines, as the source does, is filtering the rows
      before joining them: a row's text is empty exactly when it has no
      cells, because every kept cell is non-empty. */
  lemma {:induction false} PipeLinesTable(lines: seq<string>)
    ensures DropEmpty(RowTexts(lines)) == JoinEach(PipeTable(lines), '\t')
    decreases |lines|
  {
    if |lines| > 0 {
      PipeLinesTable(lines[1..]);
      JoinEmpty(PipeRow(lines[0]), '\t');
      assert RowTexts(lines)[1..] == RowTexts(lines[1..]);
      var head := if PipeRow(lines[0]) == [] then [] else [PipeRow(lines[0])];
      JoinEachAppend(head, PipeTable(lines[1..]));
    }
  }

  lemma JoinEachAppend(x: seq<seq<string>>, y: seq<seq<string>>)
    ensures JoinEach(x + y, '\t') == JoinEach(x, '\t') + JoinEach(y, '\t')
  {
    var xy := x + y;
    var l := JoinEach(xy, '\t');
    var r := JoinEach(x, '\t') + JoinEach(y, '\t');
    assert |l| == |r|;
    forall i | 0 <= i < |l| ensures l[i] == r[i] {
      if i < |x| {
        assert xy[i] == x[i];
      } else {
        assert xy[i] == y[i - |x|];
      }
    }
  }

  /** The results view shows the pipe table as parsed: when the table
      text is non-empty and the answer holds no tab, the first kept row
      becomes the headers and the remaining kept rows the data rows. */
  lemma PipeTableParses(answer: string)
    requires PipeToTsv(answer) != "" && '\t' !in answer
    ensures var rows := PipeTable(Split(answer, '\n'));
            |rows| >= 1 && ParseTsv(PipeToTsv(answer)) == Table(rows[0], rows[1..])
  {
    var source := Split(answer, '\n');
    var rows := PipeTable(source);
    NonEmptyTable(answer);
    var t := Table(rows[0], rows[1..]);
    PipeRendered(answer);
    PipeTight(answer);
    forall k | 0 <= k < |source| ensures '\t' !in source[k] {
      SplitChars(answer, '\n', '\t');
    }
    forall i | 0 <= i < |rows| ensures CleanCells(rows[i]) {
      PipeTableCells(source, i);
    }
    TableOfRows(rows);
    ParseRender(t);
  }

  /** The table text is non-empty exactly when some answer line has a cell. */
  lemma NonEmptyTable(answer: string)
    ensures PipeToTsv(answer) != "" <==> |PipeTable(Split(answer, '\n'))| >= 1
  {
    var lines := PipeLines(answer);
    PipeLinesTable(Split(answer, '\n'));
    JoinEmpty(lines, '\n');
  }

  /** A character absent from a line is absent from its cells. */
  lemma PipeRowFree(line: string, d: char)
    requires d !in line
    ensures forall j :: 0 <= j < |PipeRow(line)| ==> d !in PipeRow(line)[j]
  {
    var pieces := Split(line, '|');
    var trimmed := TrimEach(pieces);
    var cells := PipeRow(line);
    SplitChars(line, '|', d);
    forall j | 0 <= j < |cells| ensures d !in cells[j] {
      assert cells[j] in DropEmpty(trimmed);
      var k :| 0 <= k < |trimmed| && trimmed[k] == cells[j];
      TrimChars(pieces[k], d);
    }
  }

  lemma PipeTableCells(source: seq<string>, i: nat)
    requires forall k :: 0 <= k < |source| ==> '\n' !in source[k] && '\t' !in source[k]
    requires i < |PipeTable(source)|
    ensures CleanCells(PipeTable(source)[i])
    decreases |source|
  {
    var head := if PipeRow(source[0]) == [] then [] else [PipeRow(source[0])];
    var tail := PipeTable(source[1..]);
    assert PipeTable(source) == head + tail;
    if i < |head| {
      RowClean(source[0]);
    } else {
      PipeTableCells(source[1..], i - |head|);
    }
  }

  /** A line without tabs or newlines has clean cells. */
  lemma RowClean(line: string)
    requires '\n' !in line && '\t' !in line
    ensures CleanCells(PipeRow(line))
  {
    PipeRowFree(line, '\t');
  }

  /** The table-branch output is the rendering of its kept rows. */
  lemma PipeRendered(answer: string)
    requires PipeToTsv(answer) != ""
    ensures var rows := PipeTable(Split(answer, '\n'));
            |rows| >= 1 && Render(Table(rows[0], rows[1..])) == PipeToTsv(answer)
  {
    NonEmptyTable(answer);
    PipeTsvRows(answer);
    RenderRows(PipeTable(Split(answer, '\n')));
  }

  /** The table-branch output is the kept rows' cells joined by tabs, the
      rows joined by newlines. */
  lemma PipeTsvRows(answer: string)
    ensures PipeToTsv(answer) == Join(JoinEach(PipeTable(Split(answer, '\n')), '\t'), '\n')
  {
    PipeLinesTable(Split(answer, '\n'));
  }

  /** Rendering a table whose header row is the first of the rows. */
  lemma RenderRows(rows: seq<seq<string>>)
    requires |rows| >= 1
    ensures Render(Table(rows[0], rows[1..])) == Join(JoinEach(rows, '\t'), '\n')
  {
    assert AllRows(Table(rows[0], rows[1..])) == rows;
  }

  /** Non-empty table-branch output neither begins nor ends with whitespace. */
  lemma PipeTight(answer: string)
    requires PipeToTsv(answer) != ""
    ensures Tight(PipeToTsv(answer))
  {
    var lines := PipeLines(answer);
    PipeLinesTable(Split(answer, '\n'));
    NonEmptyTable(answer);
    assert |lines| >= 1;
    JoinTight(lines, '\n');
  }

  lemma TableOfRows(rows: seq<seq<string>>)
    requires |rows| >= 1
    requires forall i :: 0 <= i < |rows| ==> |rows[i]| >= 1 && CleanCells(rows[i])
    ensures |rows[0]| >= 1 && CleanCells(rows[0])
    ensures forall i :: 0 <= i < |rows[1..]| ==> |rows[1..][i]| >= 1 && CleanCells(rows[1..][i])
  {
    forall i | 0 <= i < |rows[1..]| ensures |rows[1..][i]| >= 1 && CleanCells(rows[1..][i]) {
      assert rows[1..][i] == rows[i + 1];
    }
  }

  /** The header of the one-column table an answer without `|` is wrapped in. */
  const ResponseHeader: string := "Response"

  /** Trimming a text keeps its first line whole when that line starts
      and ends with a non-whitespace character. */
  lemma FirstLineKept(h: string, t: string)
    requires h != "" && Tight(h) && '\n' !in h
    ensures Split(Trim(h + ['\n'] + t), '\n')[0] == h
  {
    var s := h + ['\n'] + t;
    assert s[0] == h[0] && s[|h| - 1] == h[|h| - 1] && s[|h|] == '\n';
    var b := SkipEnd(s, 0, |s|);
    SkipEndPast(s, 0, |h| - 1, |s|);
    assert Trim(s) == s[0..b];
    SplitNoSeparator(h, '\n');
    if b > |h| {
      assert s[0..b] == h + ['\n'] + s[|h| + 1..b];
      SplitAround(h, s[|h| + 1..b], '\n');
    } else {
      assert s[0..b] == h;
    }
  }

  /** An answer without `|` is always shown under the single header
      `Response`, whatever the answer holds. */
  lemma PlainAnswerHeader(answer: string)
    requires '|' !in answer
    ensures ParseTsv(FormatAnswer(answer)).headers == [ResponseHeader]
  {
    var h := ResponseHeader;
    assert !IsWhitespace(h[0]) && !IsWhitespace(h[7]);
    assert h + ['\n'] + answer == "Response\n" + answer;
    FirstLineKept(h, answer);
    SplitNoSeparator(h, '\t');
  }

  /** A one-line answer without `|` or tab, not padded with whitespace, is
      shown as a one-column table with the answer as its only cell. */
  lemma PlainAnswerTable(answer: string)
    requires '|' !in answer && '\t' !in answer && '\n' !in answer
    requires answer != "" && Tight(answer)
    ensures ParseTsv(FormatAnswer(answer)) == Table([ResponseHeader], [[answer]])
  {
    var text := EncodeTsv([ResponseHeader], [[answer]]);
    assert JoinEach([[answer]], '\t') == [answer];
    assert text == "Response\n" + answer;
    assert text[0] == 'R' && text[|text| - 1] == answer[|answer| - 1];
    EncodeParse([ResponseHeader], [[answer]]);
  }

  /** What the editor sends and shows for one reply of the query endpoint. */
  datatype Reply =
    | Failure                    // network error, non-2xx status or a body that is not JSON
    | TextAnswer(text: string)   // `answer` is a string
    | OtherAnswer(shown: string) // `answer` is not a string; `shown` is its template rendering

  /** The body posted to the query endpoint: the query text as typed. */
  datatype QueryRequest = QueryRequest(query: string, fileId: string)

  /** The request sent, if any, and the result text handed to the page, if any. */
  datatype Submission = Submission(request: Option<QueryRequest>, result: Option<string>)

  /** The run button is enabled (apart from a pending request) and
      `handleSubmit` proceeds only when the trimmed query is non-empty. */
  predicate CanSubmit(query: string) {
    Trim(query) != ""
  }

  /** `handleSubmit`: a blank query sends nothing and shows nothing; any
      other query is sent untrimmed, and the reply's answer is normalised
      and handed to the page. A failed request hands nothing on. */
  function Submit(query: string, fileId: string, reply: Reply): (s: Submission)
    ensures s.request.None? <==> AllWhitespace(query)
    ensures s.request.Some? ==> s.request.value == QueryRequest(query, fileId)
    ensures s.result.Some? <==> s.request.Some? && !reply.Failure?
    ensures s.result.Some? && reply.TextAnswer? ==> s.result.value == FormatAnswer(reply.text)
    ensures s.result.Some? && reply.OtherAnswer? ==> s.result.value == "Response\n" + reply.shown
  {
    TrimEmpty(query);
    if !CanSubmit(query) then Submission(None, None)
    else
      var request := Some(QueryRequest(query, fileId));
      match reply
      case Failure => Submission(request, None)
      case TextAnswer(text) => Submission(request, Some(FormatAnswer(text)))
      case OtherAnswer(shown) => Submission(request, Some("Response\n" + shown))
  }
}

=== FILE: results_table.dfy ===
/** The results table's `parseData`: tab-separated display text split back
    into a header row and data rows. */
module ResultsTable {
  import opened JsString

  /** A header row and the data rows below it. Rows are not padded or cut
      to the header's width. */
  datatype Table = Table(headers: seq<string>, rows: seq<seq<string>>)

  /** No cell holds a tab or a newline. */
  predicate CleanCells(cells: seq<string>) {
    forall j :: 0 <= j < |cells| ==> '\t' !in cells[j] && '\n' !in cells[j]
  }

  /** `parseData`: trim the whole text, split it into `\n`-lines, split the
      first line on tabs for the headers and every later line for a row. */
  function ParseTsv(data: string): (t: Table)
    ensures |t.headers| >= 1
    ensures |t.rows| == Occurrences(Trim(data), '\n')
    ensures CleanCells(t.headers)
    ensures forall i :: 0 <= i < |t.rows| ==> |t.rows[i]| >= 1 && CleanCells(t.rows[i])
  {
    var cells := SplitEach(Split(Trim(data), '\n'), '\t');
    SplitEachClean(Split(Trim(data), '\n'));
    Table(cells[0], cells[1..])
  }

  /** Splitting newline-free lines on tabs yields clean cells. */
  lemma SplitEachClean(lines: seq<string>)
    requires forall i :: 0 <= i < |lines| ==> '\n' !in lines[i]
    ensures forall i :: 0 <= i < |lines| ==> CleanCells(SplitEach(lines, '\t')[i])
  {
    forall i | 0 <= i < |lines| ensures CleanCells(SplitEach(lines, '\t')[i]) {
      SplitChars(lines[i], '\t', '\n');
    }
  }

  /** All rows of a table, the header row first. */
  function AllRows(t: Table): seq<seq<string>> {
    [t.headers] + t.rows
  }

  /** The text a table is displayed from: each row's cells joined by tabs,
      the header row first, rows joined by newlines. */
  function Render(t: Table): string {
    Join(JoinEach(AllRows(t), '\t'), '\n')
  }

  /** The parsed table's rows, header row first, are the trimmed text's
      lines each split on tabs. */
  lemma ParseRows(data: string)
    ensures AllRows(ParseTsv(data)) == SplitEach(Split(Trim(data), '\n'), '\t')
  {
    var cells := SplitEach(Split(Trim(data), '\n'), '\t');
    assert [cells[0]] + cells[1..] == cells;
  }

  /** A text with no surrounding whitespace is parsed line by line as it is. */
  lemma ParseTightRows(text: string)
    requires Tight(text)
    ensures AllRows(ParseTsv(text)) == SplitEach(Split(text, '\n'), '\t')
  {
    TrimTight(text);
    ParseRows(text);
  }

  /** Joining the parsed header row, or any parsed data row, with tabs
      gives back its line of the trimmed text. */
  lemma ParsedLines(data: string)
    ensures var t := ParseTsv(data);
            var lines := Split(Trim(data), '\n');
            && Join(t.headers, '\t') == lines[0]
            && forall i :: 0 <= i < |t.rows| ==> Join(t.rows[i], '\t') == lines[i + 1]
  {
    var t := ParseTsv(data);
    var lines := Split(Trim(data), '\n');
    ParseRows(data);
    JoinSplit(lines[0], '\t');
    forall i | 0 <= i < |t.rows| ensures Join(t.rows[i], '\t') == lines[i + 1] {
      assert t.rows[i] == AllRows(t)[i + 1];
      JoinSplit(lines[i + 1], '\t');
    }
  }

  lemma {:induction false} JoinEachSplitEach(lines: seq<string>, c: char)
    ensures JoinEach(SplitEach(lines, c), c) == lines
    decreases |lines|
  {
    if |lines| > 0 {
      JoinSplit(lines[0], c);
      JoinEachSplitEach(lines[1..], c);
      assert SplitEach(lines, c)[1..] == SplitEach(lines[1..], c);
      assert [lines[0]] + lines[1..] == lines;
    }
  }

  /** Parsing loses nothing but the surrounding whitespace: rendering the
      parsed table gives back the trimmed text. In particular joining any
      parsed row with tabs gives back its source line. */
  lemma RenderParse(data: string)
    ensures Render(ParseTsv(data)) == Trim(data)
  {
    var text := Trim(data);
    var lines := Split(text, '\n');
    ParseRows(data);
    JoinEachSplitEach(lines, '\t');
    JoinSplit(text, '\n');
  }

  lemma {:induction false} SplitEachJoinEach(rows: seq<seq<string>>)
    requires forall i :: 0 <= i < |rows| ==> |rows[i]| >= 1 && CleanCells(rows[i])
    ensures SplitEach(JoinEach(rows, '\t'), '\t') == rows
    ensures forall i :: 0 <= i < |rows| ==> '\n' !in JoinEach(rows, '\t')[i]
    decreases |rows|
  {
    if |rows| > 0 {
      SplitJoin(rows[0], '\t');
      JoinChars(rows[0], '\t', '\n');
      SplitEachJoinEach(rows[1..]);
      assert JoinEach(rows, '\t')[1..] == JoinEach(rows[1..], '\t');
      assert [rows[0]] + rows[1..] == rows;
    }
  }

  /** Parsing undoes rendering when no cell holds a tab or newline, the
      header row and every data row have at least one cell, and the text
      neither begins nor ends with whitespace. */
  lemma ParseRender(t: Table)
    requires |t.headers| >= 1 && CleanCells(t.headers)
    requires forall i :: 0 <= i < |t.rows| ==> |t.rows[i]| >= 1 && CleanCells(t.rows[i])
    requires Tight(Render(t))
    ensures ParseTsv(Render(t)) == t
  {
    var text := Render(t);
    var all := AllRows(t);
    var joined := JoinEach(all, '\t');
    forall i | 0 <= i < |all| ensures |all[i]| >= 1 && CleanCells(all[i]) {
      if i > 0 {
        assert all[i] == t.rows[i - 1];
      }
    }
    SplitEachJoinEach(all);
    SplitJoin(joined, '\n');
    ParseTightRows(text);
    var p := ParseTsv(text);
    assert AllRows(p) == all;
    assert p.headers == AllRows(p)[0] && p.rows == AllRows(p)[1..];
  }

  /** The empty text parses to a single empty header and no rows. */
  lemma ParseEmpty()
    ensures ParseTsv("") == Table([""], [])
  {
  }

  /** Parsing depends on the text only through its trimmed form. */
  lemma ParseTrimmed(data: string)
    ensures ParseTsv(data) == ParseTsv(Trim(data))
  {
    TrimTight(Trim(data));
  }

  /** Rows keep their own widths (the header row here has two cells, the
      data rows one), and an interior blank line survives as a row holding
      one empty cell. */
  lemma ParseRagged()
    ensures ParseTsv("a\tb\n\nc") == Table(["a", "b"], [[""], ["c"]])
  {
    var t := Table(["a", "b"], [[""], ["c"]]);
    RaggedRender();
    assert Tight(Render(t)) by {
      assert Render(t)[0] == 'a' && Render(t)[|Render(t)| - 1] == 'c';
    }
    ParseRender(t);
  }

  lemma RaggedRender()
    ensures Render(Table(["a", "b"], [[""], ["c"]])) == "a\tb\n\nc"
  {
    var lines := ["a\tb", "", "c"];
    var all := AllRows(Table(["a", "b"], [[""], ["c"]]));
    assert all == [["a", "b"], [""], ["c"]];
    assert Join(all[0], '\t') == "a\tb";
    assert Join(all[1], '\t') == "" && Join(all[2], '\t') == "c";
    assert JoinEach(all, '\t') == lines;
    assert Join(lines[1..], '\n') == "\nc";
  }
}

=== FILE: tsv_format.dfy ===
/** The display text built from a header list and data rows, written out
    three times in the source: on the upload path, on the example path and
    when a stored file is selected again. */
module TsvFormat {
  import opened JsString
  import opened ResultsTable

  /** `${headers.join('\t')}\n${rows.map(r => r.join('\t')).join('\n')}`. */
  function EncodeTsv(headers: seq<string>, rows: seq<seq<string>>): string {
    Join(headers, '\t') + "\n" + Join(JoinEach(rows, '\t'), '\n')
  }

  lemma JoinEachCons(h: seq<string>, rows: seq<seq<string>>, c: char)
    ensures JoinEach([h] + rows, c) == [Join(h, c)] + JoinEach(rows, c)
  {
    var l := JoinEach([h] + rows, c);
    var r := [Join(h, c)] + JoinEach(rows, c);
    forall i | 0 <= i < |l| ensures l[i] == r[i] {
      if i > 0 {
        assert ([h] + rows)[i] == rows[i - 1];
      }
    }
  }

  /** With at least one data row the formatted text is the rendering of the
      table the results view parses it into. */
  lemma EncodeIsRender(headers: seq<string>, rows: seq<seq<string>>)
    requires |rows| >= 1
    ensures EncodeTsv(headers, rows) == Render(Table(headers, rows))
  {
    var lines := JoinEach([headers] + rows, '\t');
    JoinEachCons(headers, rows, '\t');
    assert lines[1..] == JoinEach(rows, '\t');
  }

  /** The formatted text consists of exactly `1 + |rows|` lines when there is
      a data row and no cell holds a newline: the header line first, then
      each row's cells joined by tabs, in order. */
  lemma EncodeLines(headers: seq<string>, rows: seq<seq<string>>)
    requires |rows| >= 1
    requires forall j :: 0 <= j < |headers| ==> '\n' !in headers[j]
    requires forall i, j :: 0 <= i < |rows| && 0 <= j < |rows[i]| ==> '\n' !in rows[i][j]
    ensures Split(EncodeTsv(headers, rows), '\n') == [Join(headers, '\t')] + JoinEach(rows, '\t')
    ensures |Split(EncodeTsv(headers, rows), '\n')| == 1 + |rows|
  {
    var lines := [Join(headers, '\t')] + JoinEach(rows, '\t');
    JoinChars(headers, '\t', '\n');
    forall i | 0 <= i < |rows| ensures '\n' !in JoinEach(rows, '\t')[i] {
      JoinChars(rows[i], '\t', '\n');
    }
    forall i | 0 <= i < |lines| ensures '\n' !in lines[i] {
      if i > 0 {
        assert lines[i] == JoinEach(rows, '\t')[i - 1];
      }
    }
    EncodeIsRender(headers, rows);
    JoinEachCons(headers, rows, '\t');
    SplitJoin(lines, '\n');
  }

  /** Round trip: the results view parses the formatted text back into the
      original headers and rows, provided no cell holds a tab or newline,
      the header list and every row are non-empty, there is a data row, and
      the text neither begins nor ends with whitespace. */
  lemma EncodeParse(headers: seq<string>, rows: seq<seq<string>>)
    requires |headers| >= 1 && CleanCells(headers)
    requires |rows| >= 1
    requires forall i :: 0 <= i < |rows| ==> |rows[i]| >= 1 && CleanCells(rows[i])
    requires Tight(EncodeTsv(headers, rows))
    ensures ParseTsv(EncodeTsv(headers, rows)) == Table(headers, rows)
  {
    EncodeIsRender(headers, rows);
    ParseRender(Table(headers, rows));
  }

  /** Round trip without data rows: the text is the header line and a
      newline, which trimming removes, so the results view shows the headers
      and no rows. */
  lemma EncodeParseNoRows(headers: seq<string>)
    requires |headers| >= 1 && CleanCells(headers)
    requires Tight(Join(headers, '\t'))
    ensures ParseTsv(EncodeTsv(headers, [])) == Table(headers, [])
  {
    var line := Join(headers, '\t');
    var text := EncodeTsv(headers, []);
    assert text == line + "\n";
    ParseTrimmed(text);
    if line == "" {
      TrimEmpty(text);
      assert AllWhitespace(text) by {
        assert text == "\n";
      }
      assert headers == [""] by {
        JoinEmptyLine(headers);
      }
    } else {
      TrimUnique("", line, "\n");
      assert "" + line + "\n" == text;
      TrimTight(line);
      var t := Table(headers, []);
      assert JoinEach(AllRows(t), '\t') == [line];
      assert Render(t) == line;
      ParseRender(t);
    }
  }

  /** A tab-join of a non-empty header list is empty only for one empty header. */
  lemma JoinEmptyLine(headers: seq<string>)
    requires |headers| >= 1
    ensures Join(headers, '\t') == "" ==> headers == [""]
  {
    if |headers| > 1 {
      assert |Join(headers, '\t')| >= 1;
    }
  }
}
